=== FILE: README.md ===
# beldre core in Dafny

A Dafny model of three parts of beldre, an image-board archive written in Go:

- **The rule34.xxx crawler** (`crawler/rule.go`):
  - the listing URL of a tag and of each of its pages;
  - which pages one crawl run schedules;
  - the tag tokens of a post;
  - the file extension taken from an image URL;
  - the `storePost` transaction. It writes one remote post into the tables `post_crawl_info`, `post`, `tag` and `post_tag`, all or nothing.
- **The user endpoints** (`api/user.go`):
  - username and password validation;
  - the password gates in front of bcrypt;
  - the responses of `POST /user/register` and `POST /user/login`.
- **The post search** (`api/posts.go`):
  - how `GET /api/post` splits its `q` parameter into tags to include and tags to exclude;
  - how it reads the page `p`;
  - the positional arguments it gives the post query;
  - the post ids it hands to the tag statistics query.

Files and modules:

| file | module | models |
|---|---|---|
| `wrappers.dfy` | `Wrappers` | `Option` |
| `go_text.dfy` | `GoText` | The Go library routines the core relies on: `unicode.IsSpace`, `unicode.IsDigit`, `strings.ToLower`, `strings.Split`, `strings.TrimSpace`, `strings.Fields`, `strings.LastIndex`, `%d` formatting, `strconv.Atoi` on 64-bit ints, UTF-8 byte lengths. It also holds their round-trip lemmas. |
| `crawler.dfy` | `Crawler` | The remote post and listing page, URLs, pagination, image extension, tag tokens |
| `crawler_store.dfy` | `CrawlerStore` | The tables as a value, `StoreSpec`, which states `storePost` as one function, and the class `Db` whose methods run the transaction step by step |
| `user.dfy` | `User` | Errors and their texts, validation, the hashing and comparing gates, the register and login handlers |
| `posts.dfy` | `Posts` | The class `PostsQuery` with `newPostsQuery`, the query-term loop, the argument list, the id array loop, and the `GET /api/post` handler |

How the outside world enters the model:

- **Database, bcrypt and templates.** Modelled as parameters: functions from a statement's arguments to its outcome, or a flag saying whether a template rendered.
- **`storePost`.** Its failing steps are an input set of `Step` values. The image's content hash and the post's JSON text are inputs too.
- **Strings.** Modelled as sequences of runes. Where the code counts bytes, `Utf8Length` gives the byte count.

A listing with `count = 150` stores page 0 only: `150 / 100` is 1, and the loop from 1 to 1 schedules nothing. `Crawler.ExtraPagesFromTwoHundred` states the rule as the code has it: an extra page is scheduled exactly when there are at least 200 matches.

## Model

| member | source | states |
|---|---|---|
| `GoText.ToLower` | api/user.go:30 | Lowering keeps the rune count and maps each rune on its own. A rune lands in a–z exactly when it was already there, or is an ASCII capital, U+0130 or U+212A. |
| `GoText.IsSpace` | crawler/rule.go:204 | `unicode.IsSpace`: the Latin-1 white space (tab to carriage return, space, U+0085, U+00A0) and, above Latin-1, the runes with the Unicode White_Space property. It decides what `strings.TrimSpace` and `strings.Fields` cut. |
| `GoText.IsDigit` | api/user.go:181 | `unicode.IsDigit`: the ASCII digits and the runs of ten decimal digits of Unicode category Nd. |
| `GoText.Split` | crawler/rule.go:202 | `strings.Split` gives at least one piece, and no piece contains the separator. |
| `GoText.JoinSplit` | crawler/rule.go:202 | Joining the pieces with the separator gives the tag string back: splitting loses nothing. |
| `GoText.SplitJoin` | crawler/rule.go:202 | Splitting pieces that hold no separator, once joined, gives exactly those pieces back. |
| `GoText.TrimSpace` | crawler/rule.go:204 | The trimmed piece is no longer than the piece, and when not empty it neither starts nor ends with white space. |
| `GoText.TrimSpaceDropsSpace` | crawler/rule.go:204 | The trimmed piece is a slice of the piece. Everything cut off before and after it is white space. |
| `GoText.TrimSpaceEmpty` | crawler/rule.go:204-205 | A piece trims to the empty string exactly when it is all white space. |
| `GoText.TrimSpaceSubset` | crawler/rule.go:204 | Trimming adds no rune, so a trimmed piece holds no `' '` that the piece did not hold. |
| `GoText.Fields` | api/posts.go:26 | Every field is non-empty and holds no white space. |
| `GoText.FieldsOfJoin` | api/posts.go:26 | Words joined by single spaces come back from `strings.Fields` as exactly those words. |
| `GoText.FieldsEmpty` | api/posts.go:25-26 | The empty query has no fields. |
| `GoText.LastIndex` | crawler/rule.go:286 | The result is -1 or a position holding the rune, and no later position holds it. |
| `GoText.Utf8Length` | crawler/rule.go:286 | A string's byte length lies between its rune count and four times it. |
| `GoText.Utf8LengthOfAscii` | crawler/rule.go:286 | An ASCII string has as many bytes as runes. |
| `GoText.FormatInt` | crawler/rule.go:73 | `%d` of an integer: a `-` exactly for a negative number, then its decimal digits; never empty. `GoText.AtoiOfFormat` reads it back. |
| `GoText.FormatIntInjective` | crawler/rule.go:73 | Different integers print differently with `%d`. |
| `GoText.Atoi` | api/posts.go:18 | The result is a 64-bit integer. It is non-zero only when the text after an optional sign is a decimal numeral, or starts with digits whose value exceeds 2^64 - 1 (the reading stops at the overflow, before any later non-digit). A positive result has no leading `-`, a negative one has. |
| `GoText.Clamp` | api/posts.go:18 | A signed value is brought into the 64-bit range: unchanged when it fits, the largest or smallest int64 when it does not; zero only for zero. |
| `GoText.AtoiOfFormat` | api/posts.go:18 | Every 64-bit integer printed with `%d` reads back as itself. |
| `GoText.AtoiOverflowIgnoresRest` | api/posts.go:18 | Digits worth more than 2^64 - 1, with an optional sign, read as the largest int64 (the smallest after `-`), whatever non-digit text follows them. |
| `GoText.AtoiOfOverflowThenLetter` | api/posts.go:18 | The digits of 2^64 followed by `x` read as the largest int64, not as 0. |
| `Crawler.ListingURL` | crawler/rule.go:56 | The listing URL of a tag: the `dapi` index endpoint followed by the tag. It is also the URL of page 0. |
| `Crawler.PageURL` | crawler/rule.go:73 | The URL of page `i` of a listing: the listing URL, `&pid=`, and `i` in decimal. |
| `Crawler.PageURLReadsBack` | crawler/rule.go:73 | A page URL is the listing URL, then `&pid=`, then text that reads back as the page index. |
| `Crawler.TagPageURL` | crawler/rule.go:80 | The URL `storeTagPage` fetches: the `dapi` index endpoint, the tag, `&pid=` and the page in decimal. |
| `Crawler.TagPageURLIsPageURL` | crawler/rule.go:79-82 | `storeTagPage` requests the same URL as the pagination of a crawl run. |
| `Crawler.PageURLsDistinct` | crawler/rule.go:70-75 | Different page indices are requested with different URLs. |
| `Crawler.GoQuot` | crawler/rule.go:69 | Go's division truncates toward zero: for a non-negative count the quotient is its floor. |
| `Crawler.PageCount` | crawler/rule.go:69 | `p.Count / 100`, the bound of the pagination loop, with Go's truncating division. |
| `Crawler.ExtraPagesFromTwoHundred` | crawler/rule.go:69-70 | A page beyond page 0 is scheduled exactly when there are at least 200 matches, and the whole pages never cover more than the count. |
| `Crawler.StoreFullTag` | crawler/rule.go:55-77 | A failed page-0 fetch schedules nothing. Otherwise the first task stores page 0's posts under the listing URL, and task i fetches page i, for each i from 1 up to but excluding count / 100. |
| `Crawler.ImageExtension` | crawler/rule.go:285-287 | The extension is the tail of the URL after its last `'.'`, holding no `'.'`. It is the whole URL when there is no `'.'`. |
| `Crawler.ImageExtensionAsWritten` | crawler/rule.go:286 | As written, the code slices the rune array with byte offsets. The slice panics exactly when the URL's byte length exceeds the array's capacity. |
| `Crawler.ImageExtensionAsWrittenOnAscii` | crawler/rule.go:286 | On an ASCII URL, the code as written yields the extension. |
| `Crawler.ImageExtensionAsWrittenOnNonAscii` | crawler/rule.go:286 | On `é.png`, the code as written yields `ng` plus a zero rune, or panics; the extension is `png`. |
| `Crawler.Tokens` | crawler/rule.go:202-205 | There are no more tag tokens than pieces. |
| `Crawler.TagTokens` | crawler/rule.go:202-205 | The tags a post is stored with: its tag string split at every `' '`, each piece trimmed, empty pieces dropped, in order. |
| `Crawler.TokensWellFormed` | crawler/rule.go:202-205 | Every token is non-empty, holds no `' '`, and neither starts nor ends with white space. |
| `Crawler.TagTokensWellFormed` | crawler/rule.go:202-205 | The same holds for the tokens of any tag string. |
| `Crawler.TokensMembership` | crawler/rule.go:203-205 | A string is a token exactly when it is the non-empty trimmed form of some piece. |
| `Crawler.TokensOfPrefix` | crawler/rule.go:203-205 | Tokens come out in piece order: the tokens of the first pieces are a prefix of all the tokens. |
| `CrawlerStore.NormalizeSource` | crawler/rule.go:177-179 | An empty source is stored as NULL; any other source is stored as it is. |
| `CrawlerStore.RowsMembership` | crawler/rule.go:206-228 | The tag rows written are exactly the tokens. The link rows written join the post's hash to exactly the tokens. |
| `CrawlerStore.StoreSpec` | crawler/rule.go:122-238 | `storePost` as one decision over its steps, in the code's order: a failed lookup, a known URL, a failed download, JSON encoding or transaction start each end it with the tables unchanged; a failing statement inside the transaction rolls back; otherwise the post is recorded. Defined for posts that do not panic: an ASCII file URL and a source attribute where the code reads them. |
| `CrawlerStore.DuplicateUrlIsSkipped` | crawler/rule.go:123-136 | A post whose file URL is already in `post_crawl_info` is skipped before any write. |
| `CrawlerStore.FailureLeavesTablesUnchanged` | crawler/rule.go:127-233 | Unless the transaction commits, no table changes: every failure ends with the tables as they were. |
| `CrawlerStore.CommitsExactlyWhenNothingFails` | crawler/rule.go:122-237 | The post is committed exactly when its URL is new and none of its steps fails. |
| `CrawlerStore.Recorded` | crawler/rule.go:157-235 | The tables after a commit: the crawl-info row for the URL with the next id, the site and the JSON text; a post row for the hash unless one exists; every token's tag row and its link to the hash; the next id one higher. |
| `CrawlerStore.CommitRecordsPost` | crawler/rule.go:157-235 | After a commit, three things hold. The URL has a crawl-info row with the next id, the site and the JSON text. The hash has a post row: the earlier one if there was one, else a new one by the crawler account, pointing at that crawl-info row, with the normalised source. The tag and link tables gained exactly the post's tokens and the links from its hash to them. |
| `CrawlerStore.ExistingRowsAreKept` | crawler/rule.go:181-228 | Inserts that hit an existing key change nothing: rows present before are present and unchanged after, whatever the outcome. |
| `CrawlerStore.KnownTagsAndLinksAreNoOps` | crawler/rule.go:206-228 | Storing a post whose tags and links all exist already leaves `tag` and `post_tag` as they were. |
| `CrawlerStore.StoringAgainIsDuplicate` | crawler/rule.go:123-136 | Once a post has committed, storing any post with the same file URL is a duplicate that changes nothing. |
| `CrawlerStore.RecordedPreservesValid` | crawler/rule.go:157-235 | Recording a post under a new URL keeps referential integrity: ids are distinct and below the next id, posts point at existing crawl-info rows, and links join existing posts and tags. |
| `CrawlerStore.StorePreservesValid` | crawler/rule.go:122-238 | `storePost` keeps that integrity, whatever its outcome. |
| `CrawlerStore.Db.Rollback` | crawler/rule.go:165 | `tx.Rollback` puts every table back as it was when the transaction began. |
| `CrawlerStore.Db.InsertTagAndLink` | crawler/rule.go:206-233 | Two inserts for one tag: the tag row, then the link from the post to it. It fails exactly when one of them fails, and otherwise adds both rows and nothing else. On failure it adds no link, and the tag row only when it was the link insert that failed. |
| `CrawlerStore.Db.InsertTags` | crawler/rule.go:202-235 | The loop over the tag pieces fails exactly when the insert of some token fails. Otherwise it adds exactly the tokens' tag and link rows. Either way it removes nothing, adds no row that is not a token's, and leaves the other tables alone. |
| `CrawlerStore.Db.StoreInTransaction` | crawler/rule.go:157-237 | For a post with a new URL: committed with the post recorded when no statement fails, otherwise rolled back with the tables restored. |
| `CrawlerStore.Db.StorePost` | crawler/rule.go:122-238 | `storePost` step by step. Its outcome and new tables are those of `StoreSpec`, and it keeps the tables' integrity. It requires what the code needs to avoid a panic: an ASCII file URL once the URL is found new (the extension slice at crawler/rule.go:138 and 286), and a source attribute where it is read. |
| `CrawlerStore.Db.constructor` | crawler/rule.go:122 | An empty database satisfies the integrity invariant. |
| `User.Message` | api/user.go:18-25 | The text of each of the handlers' errors, as the code declares it; an error from bcrypt carries its own text. |
| `User.ValidUsername` | api/user.go:173-187 | The length error comes exactly for fewer than 4 or more than 30 runes. The character error comes exactly for a right-length name holding a rune outside a–z and the Unicode decimal digits. No error comes exactly for an acceptable name. |
| `User.ValidPassword` | api/user.go:164-170 | A password is refused, with the length error, exactly when it has fewer than 8 runes. |
| `User.PasswordLengthCountsRunes` | api/user.go:165 | Length is counted in runes, not bytes: `éééé` has 8 bytes and is still refused. |
| `User.HashPassword` | api/user.go:150-161 | A short password gives the length error and bcrypt is not consulted. Otherwise the result is bcrypt's hash, or bcrypt's error unchanged. |
| `User.ComparePassword` | api/user.go:136-147 | A short password gives the length error. Otherwise bcrypt decides: a match gives no error, a mismatch gives "passwords don't match", and any other bcrypt error passes through. |
| `User.PasswordRuleShared` | api/user.go:136-161 | Registration and login refuse exactly the same passwords for length, whatever bcrypt does. |
| `User.LoweredRune` | api/user.go:30-32 | A lowered rune is a username rune exactly when it was one, or is a capital that lowers into a–z. |
| `User.LoweredNameAcceptable` | api/user.go:30-32 | A submitted name passes validation after lowering exactly when its length is right and each rune is a username rune or a capital that lowers into a–z. |
| `User.CapitalRefused` | api/user.go:181 | `ValidUsername` itself refuses capitals. |
| `User.NonAsciiDigitAccepted` | api/user.go:181 | `unicode.IsDigit` admits digits outside ASCII, so a name ending in U+1D7CF is accepted. |
| `User.RegisterOutcome` | api/user.go:27-71 | The register handler as one decision: a refused lowered name or password gives 400 with its error, a bcrypt failure or a failed insert gives 500, an insert that affects no row gives 409 "username already in use", and otherwise 200; with the (lowered name, hash) row it tries to insert, if any. |
| `User.RegisterUser` | api/user.go:27-71 | The handler's response, and the row it tries to insert, are those of `RegisterOutcome`. |
| `User.RegisterStatuses` | api/user.go:29-70 | Statuses of registration:<br>- 200 exactly when the lowered name is acceptable, the password has at least 8 runes, bcrypt hashes it and the insert affects a row;<br>- 400 exactly when the name or the password is refused;<br>- 409 with "username already in use" exactly when the insert affects no row.<br>Only the lowered name and bcrypt's hash are ever inserted. |
| `User.LoginUser` | api/user.go:73-120 | Responses of login:<br>- the name is lowered by `strings.ToLower`, a parameter `lower`, and looked up unvalidated;<br>- 200 exactly when the template renders, the lowered name is found, the password has at least 8 runes and bcrypt matches it;<br>- an unknown name gives 400 "no user with that name exists";<br>- a short password gives 400 with the length error;<br>- a bcrypt mismatch gives 400 "given and stored password do not match";<br>- a template error, a failed lookup and any other bcrypt error give 500 "internal server error";<br>- 200 always carries the success message, and no other status than 200, 400 and 500 is ever answered. |
| `Posts.IsIncludeTerm` | api/posts.go:28 | A field names a tag to include when it is non-empty and does not start with `-`. |
| `Posts.IncludedTerms` | api/posts.go:25-34 | There are no more tags to include than fields. |
| `Posts.ExcludedTerms` | api/posts.go:25-34 | There are no more tags to exclude than fields. |
| `Posts.TermsPartition` | api/posts.go:28-32 | Every field lands in exactly one of the two lists. |
| `Posts.TermsOfAppend` | api/posts.go:26-33 | Both lists keep the order of the fields: the terms of two runs of fields are the terms of each run, in order. |
| `Posts.TermsMembership` | api/posts.go:28-32 | The include list holds exactly the fields not starting with `-`. The exclude list holds exactly the remainders of those that do. |
| `Posts.PlainQueryIncludesAll` | api/posts.go:25-34 | A query of space-separated plain tags includes exactly those tags and excludes none. A bare `-` excludes the empty name. |
| `Posts.RequestedPage` | api/posts.go:17-23 | The page is between 0 and the largest 64-bit integer. It is positive only when `p` has no leading `-` and, after an optional `+`, is a numeral or starts with digits past 2^64 - 1. |
| `Posts.RequestedPageOfNumber` | api/posts.go:18-23 | A page number in decimal is read back. Zero and negative numbers give page 0. |
| `Posts.RequestedPageOfOverflow` | api/posts.go:18 | A page number past 2^64 - 1 asks for the largest int64 page, even when other text follows it. |
| `Posts.ArgsFor` | api/posts.go:96-111 | The arguments are laid out in order: the tag list if there are tags, the exclude list if there are excludes, the tag count if there are tags, then limit and page. No list argument is empty, so the IN expansion never sees an empty list. |
| `Posts.PostIds` | api/posts.go:130-133 | One id per post, the id of the post at the same position. |
| `Posts.PostsQuery.constructor` | api/posts.go:59-65 | `newPostsQuery`: order `id DESC`, limit 40, page 0, no terms, no rows. |
| `Posts.PostsQuery.AddQueryTerms` | api/posts.go:25-34 | Parsing appends the included and the excluded terms of the query's fields, and changes nothing else. An empty query adds no term. |
| `Posts.PostsQuery.AddFields` | api/posts.go:26-33 | The loop over the fields appends each field to the include list, or its remainder after `-` to the exclude list. It keeps their order and changes nothing else. |
| `Posts.PostsQuery.BuildArgs` | api/posts.go:96-111 | The argument list built step by step is `ArgsFor` of the query. |
| `Posts.PostsQuery.LoadPosts` | api/posts.go:91-120 | The post select gets `ArgsFor` of the query. Its rows become the posts, or its error is returned. |
| `Posts.PostsQuery.TagStatsPostIds` | api/posts.go:125-133 | With no posts there is nothing to look up. Otherwise the result is the id of each post, in order. |
| `Posts.PostsQuery.GetTagStats` | api/posts.go:122-146 | With no posts nothing is queried and there is no error. Otherwise the statistics of the posts' ids become the tag statistics, or the select's error is returned. |
| `Posts.NewGetPostsQuery` | api/posts.go:17-34 | The handler's query state: page `RequestedPage(p)`, the included and excluded terms of the fields of `q`, and the defaults otherwise. |
| `Posts.GetPosts` | api/posts.go:14-57 | Responses of `GET /api/post`:<br>- a template error or a failed select gives 500 with the error text;<br>- with no posts, 200 with no posts and no statistics, and the statistics are not queried;<br>- otherwise 200 with the posts and the statistics of their ids. |

## Left out

- The concurrency of a crawl run is not modelled: the two bounded pools, the goroutines and `waitForChannels`. `StoreFullTag` returns the tasks it would start, in the order it starts them.
- Network I/O is not modelled: the HTTP GET and the XML decoding in `getPosts` (crawler/rule.go:84-105). A fetch is an input `Fetch` value.
- `storeImage` is not modelled: the download, the BLAKE2s hash, the temporary file, the rename and the exponential backoff retry. The hash it returns, or its failure, is an input of `storePost`.
- `storePageFromURL` and `storePageFromStruct` (crawler/rule.go:107-120) only fan posts out to goroutines. `storePageFromURL` ignores the fetch error: when the fetch fails, `getPosts` returns a nil page and reading its posts is a nil-pointer panic. It happens in a goroutine without `recover`, so one failed page fetch ends the whole crawler process. Neither function is modelled.
- JSON encoding of a post and of the responses is not modelled. The post's JSON text is an input, and responses are values.
- `CrawlerStore.Db.StorePost`: requires a source attribute on any post that gets as far as the empty-source check. The code dereferences the source pointer without a nil check (crawler/rule.go:177), so a post without the attribute would crash there.
- `CrawlerStore.Db.StorePost`: requires an ASCII file URL once the URL is found new. The code slices the URL's rune array with byte offsets (crawler/rule.go:286), which panics when the byte length exceeds the array's capacity; `Crawler.ImageExtensionAsWritten` states when that happens. The precondition also excludes non-ASCII URLs whose rune array happens to have room enough, since that capacity is chosen by the Go runtime.
- `CrawlerStore.StoreSpec`: defined only for posts that meet the same two conditions, ASCII file URL and source attribute, as `CrawlerStore.Storable` states.
- `CrawlerStore.StoreSpec` does not model the auto-increment counter surviving a rollback. The model restores the next crawl-info id with the other tables, while the database would not reuse it; ids stay distinct either way.
- A concurrent crawl of the same URL passing the duplicate check twice is not modelled. Runs are sequential in the model.
- The error of `tx.Commit` is ignored by the code. The model treats a failed commit like any failed statement: nothing is stored.
- `storePost` takes a page URL parameter it never uses; the model drops it.
- `GoText.ToLower`: only the Unicode case mappings that land in a–z are modelled (A–Z, U+0130, U+212A). Every other rune is kept as it is. Registration uses it: a name reaches the insert only when its lowered form is all a–z and digits, and there both lowerings agree. Login looks up the lowered name without validating it, so every case mapping shows there; `User.LoginUser` takes Go's full lowering as the parameter `lower` instead.
- Go strings are byte sequences; the model's strings are rune sequences. Invalid UTF-8 in a request is not modelled.
- bcrypt is not modelled: hashing and comparison are parameters.
- The database is not modelled in the user and post endpoints: its outcomes are parameters. `RowsAffected`'s own error is ignored by the code and not modelled; the count is the input.
- `Posts.PostsQuery.LoadPosts` and `Posts.PostsQuery.GetTagStats` assume a failed select leaves the destination slice unchanged.
- `sqlx.In` is assumed to succeed. `Posts.ArgsFor` proves that it is never handed an empty list, which is the failure the code avoids.
- The select templates and their rendering (conf/conf.go) are not part of this model. Only whether `select_posts` rendered enters `GetPosts`. In `getTagStats` the code ignores a template error, so it does not enter the model.
- `main.go`, `conf/conf.go` and `api/post.go` are not part of this model.

## Findings

| source | as written | input that shows it | evidently intended | confidence | as-written member | corrected member |
|---|---|---|---|---|---|---|
| crawler/rule.go:286 | The byte offset from `strings.LastIndex` and the byte length `len(url)` index the rune array of the URL. | `é.png`: its bytes are 6 and its runes 5. The slice is runes 3 to 6: `ng` and a zero rune, or a panic when the array's capacity is 5. | The runes after the last `'.'`: `png` | not executed; high for the offsets, medium for the capacity-dependent outcome | `Crawler.ImageExtensionAsWritten`, `Crawler.ImageExtensionAsWrittenOnNonAscii` | `Crawler.ImageExtension`, `Crawler.ImageExtensionAsWrittenOnAscii` |

=== FILE: crawler.dfy ===
/** The pure rules of the rule34.xxx crawler: the listing request layout,
    which pages one crawl run schedules, the file extension taken from an
    image URL and the tag tokens taken from a post's tag string. */
module Crawler {
  import opened Wrappers
  import opened GoText

  /** One <post> element of a listing page, attribute by attribute. `source`
      is None when the attribute is absent (a nil *string). */
  datatype RemotePost = RemotePost(
    height: int,
    score: int,
    fileURL: string,
    parentID: int,
    sampleURL: string,
    sampleWidth: string,
    sampleHeight: string,
    previewURL: string,
    rating: string,
    tags: string,
    id: int,
    width: int,
    change: string,
    md5: string,
    creatorID: int,
    hasChildren: bool,
    createdAt: string,
    status: string,
    source: Option<string>,
    hasNotes: bool,
    hasComments: bool,
    previewWidth: int,
    previewHeight: int)

  /** The <posts> root of a listing page: the total match count, the offset
      and the posts of this page. */
  datatype ListingPage = ListingPage(count: int, offset: int, posts: seq<RemotePost>)

  /** What fetching and decoding one listing URL produced. */
  datatype Fetch = Fetched(page: ListingPage) | FetchFailed(message: string)

  /** Work handed to the listing pool by one crawl run: store the posts of a
      page already in hand, or fetch a further page and store its posts. */
  datatype PageTask =
    | StoreFromStruct(posts: seq<RemotePost>, url: string)
    | StoreFromURL(url: string)

  const ListingEndpoint: string := "https://rule34.xxx/index.php?page=dapi&s=post&q=index&tags="

  /** The listing URL of a tag; it is also the URL of page 0. */
  function ListingURL(tag: string): string {
    ListingEndpoint + tag
  }

  /** The URL of page `pid` of a listing: the listing URL, then "&pid=" and
      the page index in decimal. */
  function PageURL(listing: string, pid: int): string {
    listing + "&pid=" + FormatInt(pid)
  }

  /** A page URL starts with its listing URL, and the text after "&pid="
      reads back as the page index. */
  lemma PageURLReadsBack(listing: string, pid: int)
    requires MinInt64 <= pid <= MaxInt64
    ensures var url := PageURL(listing, pid);
      |url| > |listing| + 5 && url[..|listing|] == listing && url[|listing|..|listing| + 5] == "&pid="
      && Atoi(url[|listing| + 5..]) == pid
  {
    var url := PageURL(listing, pid);
    assert url[|listing| + 5..] == FormatInt(pid);
    AtoiOfFormat(pid);
  }

  /** The URL that storeTagPage fetches for one page of a tag. */
  function TagPageURL(tag: string, page: int): string {
    ListingEndpoint + tag + "&pid=" + FormatInt(page)
  }

  /** storeTagPage builds the same URL as the pagination of a crawl run. */
  lemma TagPageURLIsPageURL(tag: string, page: int)
    ensures TagPageURL(tag, page) == PageURL(ListingURL(tag), page)
  {
  }

  /** Different page indices are requested with different URLs. */
  lemma PageURLsDistinct(listing: string, i: int, j: int)
    requires i != j
    ensures PageURL(listing, i) != PageURL(listing, j)
  {
    if PageURL(listing, i) == PageURL(listing, j) {
      var n := |listing| + 5;
      assert FormatInt(i) == PageURL(listing, i)[n..] == PageURL(listing, j)[n..] == FormatInt(j);
      FormatIntInjective(i, j);
    }
  }

  /** Go's integer division, which truncates toward zero. */
  function GoQuot(a: int, b: int): (q: int)
    requires b > 0
    ensures a >= 0 ==> q * b <= a < q * b + b
    ensures a < 0 ==> q <= 0
  {
    if a >= 0 then a / b else -((-a) / b)
  }

  /** The number of whole pages of 100 posts in `count` matches. */
  function PageCount(count: int): int {
    GoQuot(count, 100)
  }

  /** Beyond page 0, a crawl run schedules a page exactly when there are at
      least 200 matches; a trailing partial page is never fetched. */
  lemma ExtraPagesFromTwoHundred(count: int)
    ensures PageCount(count) > 1 <==> count >= 200
    ensures count >= 0 ==> PageCount(count) * 100 <= count
  {
  }

  /** storeFullTag after its synchronous fetch of page 0, whose outcome is
      `first`: nothing when that fetch failed; otherwise the posts of page 0
      with the listing URL, then one fetch task for each page index 1 up to
      but excluding count / 100. */
  method StoreFullTag(tag: string, first: Fetch) returns (tasks: seq<PageTask>)
    ensures first.FetchFailed? ==> tasks == []
    ensures first.Fetched? ==>
      && |tasks| == (if PageCount(first.page.count) > 1 then PageCount(first.page.count) else 1)
      && tasks[0] == StoreFromStruct(first.page.posts, ListingURL(tag))
      && forall i :: 1 <= i < |tasks| ==> tasks[i] == StoreFromURL(PageURL(ListingURL(tag), i))
  {
    var url := ListingURL(tag);
    if first.FetchFailed? {
      return [];
    }
    var p := first.page;
    tasks := [StoreFromStruct(p.posts, url)];
    var pages := PageCount(p.count);
    var i := 1;
    while i < pages
      invariant 1 <= i <= (if pages > 1 then pages else 1)
      invariant |tasks| == i
      invariant tasks[0] == StoreFromStruct(p.posts, url)
      invariant forall k :: 1 <= k < i ==> tasks[k] == StoreFromURL(PageURL(url, k))
    {
      tasks := tasks + [StoreFromURL(PageURL(url, i))];
      i := i + 1;
    }
  }

  /** The file extension of an image URL: the runes after the last '.', or
      the whole URL when it has none. This is what getImageExtensionFromURL
      is evidently meant to compute; see ImageExtensionAsWritten for what it
      computes on URLs that are not ASCII. */
  function ImageExtension(url: string): (ext: string)
    ensures |ext| <= |url| && ext == url[|url| - |ext|..]
    ensures '.' !in ext
    ensures '.' in url ==> |ext| < |url| && url[|url| - |ext| - 1] == '.'
    ensures '.' !in url ==> ext == url
  {
    var i := LastIndex(url, '.');
    var ext := url[i + 1..];
    assert forall c :: c in ext ==> exists k :: i < k < |url| && url[k] == c;
    ext
  }

  /** The runes at positions lo up to hi of a rune array holding `runes`,
      where the positions at or past its length read as the zero rune. */
  function RunesBetween(runes: string, lo: nat, hi: nat): (r: string)
    requires lo <= hi
    ensures |r| == hi - lo
    ensures forall k :: 0 <= k < |r| ==> r[k] == if lo + k < |runes| then runes[lo + k] else '\0'
  {
    seq(hi - lo, k requires 0 <= k < hi - lo => if lo + k < |runes| then runes[lo + k] else '\0')
  }

  /** getImageExtensionFromURL as written: strings.LastIndex gives the BYTE
      offset of the last '.', and len(url) the byte length, but both are used
      to slice the RUNE array of the URL. A Go slice expression may reach up
      to the capacity of the array, `capacity`, where the runes past its
      length are zero; beyond the capacity it panics (None). */
  function ImageExtensionAsWritten(url: string, capacity: nat): (ext: Option<string>)
    requires capacity >= |url|
    ensures ext.Some? <==> Utf8Length(url) <= capacity
    ensures ext.Some? ==> |ext.value| <= Utf8Length(url)
  {
    var i := LastIndex(url, '.');
    var lo := if i < 0 then 0 else Utf8Length(url[..i]) + 1;
    var hi := Utf8Length(url);
    assert lo <= hi by {
      if i >= 0 {
        Utf8LengthOfConcat(url[..i], url[i..]);
        assert url[..i] + url[i..] == url;
      }
    }
    if hi <= capacity then Some(RunesBetween(url, lo, hi)) else None
  }

  /** The byte length of a concatenation is the sum of the byte lengths. */
  lemma {:induction false} Utf8LengthOfConcat(a: string, b: string)
    ensures Utf8Length(a + b) == Utf8Length(a) + Utf8Length(b)
  {
    if a != [] {
      Utf8LengthOfConcat(a[1..], b);
      assert (a + b)[1..] == a[1..] + b;
    } else {
      assert a + b == b;
    }
  }

  /** On an ASCII URL byte offsets and rune offsets agree, and the code as
      written computes the extension. */
  lemma ImageExtensionAsWrittenOnAscii(url: string, capacity: nat)
    requires capacity >= |url| && IsAscii(url)
    ensures ImageExtensionAsWritten(url, capacity) == Some(ImageExtension(url))
  {
    var i := LastIndex(url, '.');
    Utf8LengthOfAscii(url);
    if i >= 0 {
      assert IsAscii(url[..i]);
      Utf8LengthOfAscii(url[..i]);
    }
    assert RunesBetween(url, i + 1, |url|) == url[i + 1..];
  }

  /** On "é.png" (6 bytes, 5 runes) the byte offsets are off by one rune: the
      code as written yields "ng" followed by a zero rune when the rune array
      has room for 6 runes, and panics when it has exactly 5, where the
      extension is "png". */
  lemma ImageExtensionAsWrittenOnNonAscii(capacity: nat)
    requires capacity >= 5
    ensures ImageExtension("\U{E9}.png") == "png"
    ensures capacity >= 6 ==> ImageExtensionAsWritten("\U{E9}.png", capacity) == Some("ng\0")
    ensures capacity == 5 ==> ImageExtensionAsWritten("\U{E9}.png", capacity) == None
  {
    var url := "\U{E9}.png";
    assert LastIndex(url, '.') == 1 by {
      assert url[4] != '.' && url[3] != '.' && url[2] != '.' && url[1] == '.';
      assert url[..4][..3][..2] == url[..2];
    }
    assert url[..1] == "\U{E9}";
    assert Utf8Length(url[..1]) == 2;
    assert Utf8Length(url) == 6 by {
      assert url[1..][1..][1..][1..][1..] == [];
    }
    assert url[2..] == "png";
    var r := RunesBetween(url, 3, 6);
    assert r[0] == 'n' && r[1] == 'g' && r[2] == '\0';
    assert r == "ng\0";
  }

  /** The tag tokens of some pieces: each piece trimmed of white space, the
      empty ones dropped, in order. */
  function Tokens(pieces: seq<string>): (toks: seq<string>)
    ensures |toks| <= |pieces|
  {
    if pieces == [] then []
    else
      var last := TrimSpace(pieces[|pieces| - 1]);
      Tokens(pieces[..|pieces| - 1]) + (if last != [] then [last] else [])
  }

  /** The tags a post is stored with: its tag string split at every ' ',
      trimmed, empty pieces dropped. */
  function TagTokens(tags: string): seq<string> {
    Tokens(Split(tags, ' '))
  }

  /** Every token is non-empty, holds no ' ', and neither starts nor ends
      with white space. */
  lemma {:induction false} TokensWellFormed(pieces: seq<string>)
    requires forall k :: 0 <= k < |pieces| ==> ' ' !in pieces[k]
    ensures forall t :: t in Tokens(pieces) ==>
      t != [] && ' ' !in t && !IsSpace(t[0]) && !IsSpace(t[|t| - 1])
  {
    forall t | t in Tokens(pieces)
      ensures t != [] && ' ' !in t && !IsSpace(t[0]) && !IsSpace(t[|t| - 1])
    {
      TokenIsTrimmedPiece(pieces, t);
      var k :| 0 <= k < |pieces| && TrimSpace(pieces[k]) == t;
      if ' ' in t {
        TrimSpaceSubset(pieces[k], ' ');
      }
    }
  }

  lemma TagTokensWellFormed(tags: string)
    ensures forall t :: t in TagTokens(tags) ==>
      t != [] && ' ' !in t && !IsSpace(t[0]) && !IsSpace(t[|t| - 1])
  {
    TokensWellFormed(Split(tags, ' '));
  }

  /** A string is a token exactly when it is the non-empty trimmed form of
      one of the pieces. */
  lemma TokensMembership(pieces: seq<string>, t: string)
    ensures t in Tokens(pieces) <==> t != [] && exists k :: 0 <= k < |pieces| && TrimSpace(pieces[k]) == t
  {
    if t in Tokens(pieces) {
      TokenIsTrimmedPiece(pieces, t);
    }
    if t != [] && exists k :: 0 <= k < |pieces| && TrimSpace(pieces[k]) == t {
      var k :| 0 <= k < |pieces| && TrimSpace(pieces[k]) == t;
      TrimmedPieceIsToken(pieces, k);
    }
  }

  /** Every token is the trimmed form of some piece. */
  lemma {:induction false} TokenIsTrimmedPiece(pieces: seq<string>, t: string)
    requires t in Tokens(pieces)
    ensures t != [] && exists k :: 0 <= k < |pieces| && TrimSpace(pieces[k]) == t
  {
    var n := |pieces| - 1;
    var init := pieces[..n];
    TokensStep(pieces, n);
    assert pieces[..n + 1] == pieces;
    if t in Tokens(init) {
      TokenIsTrimmedPiece(init, t);
      var k :| 0 <= k < |init| && TrimSpace(init[k]) == t;
      assert pieces[k] == init[k];
    } else {
      assert TrimSpace(pieces[n]) == t;
    }
  }

  /** The non-empty trimmed form of every piece is a token. */
  lemma TrimmedPieceIsToken(pieces: seq<string>, k: nat)
    requires k < |pieces| && TrimSpace(pieces[k]) != []
    ensures TrimSpace(pieces[k]) in Tokens(pieces)
  {
    TokensStep(pieces, k);
    TokensOfPrefix(pieces, k + 1);
    assert Tokens(pieces)[|Tokens(pieces[..k])|] == TrimSpace(pieces[k]);
  }

  /** One more piece adds its trimmed form when that is not empty. */
  lemma TokensStep(pieces: seq<string>, i: nat)
    requires i < |pieces|
    ensures var last := TrimSpace(pieces[i]);
      Tokens(pieces[..i + 1]) == Tokens(pieces[..i]) + (if last != [] then [last] else [])
  {
    assert pieces[..i + 1][..i] == pieces[..i];
  }

  /** The tokens of a prefix of the pieces are a prefix of the tokens. */
  lemma {:induction false} TokensOfPrefix(pieces: seq<string>, j: nat)
    requires j <= |pieces|
    ensures Tokens(pieces[..j]) <= Tokens(pieces)
    decreases |pieces| - j
  {
    if j < |pieces| {
      TokensOfPrefix(pieces, j + 1);
      assert pieces[..j + 1][..j] == pieces[..j];
    } else {
      assert pieces[..j] == pieces;
    }
  }
}

=== FILE: crawler_store.dfy ===
/** storePost: the transaction that records one remote post in the tables
    post_crawl_info, post, tag and post_tag. The content hash of the
    downloaded image, the JSON text of the post and the statements that fail
    are inputs; the rows are keyed by their unique columns. */
module CrawlerStore {
  import opened Wrappers
  import opened GoText
  import opened Crawler

  /** The value of post_crawl_info.site. */
  const Site: string := "rule34.xxx"

  /** The user account named as uploader of every post and assigner of every
      post-tag link that the crawler writes. */
  const CrawlerAccount: string := "crawler"

  /** A post_crawl_info row (its key, url, is the map key). */
  datatype CrawlInfoRow = CrawlInfoRow(id: nat, site: string, data: string)

  /** A post row (its key, hash, is the map key); `crawlInfo` is the id of a
      post_crawl_info row. */
  datatype PostRow = PostRow(uploader: string, crawlInfo: nat, source: Option<string>)

  /** The four tables: post_crawl_info by url, post by hash, tag by name,
      post_tag by (post hash, tag name); and the next post_crawl_info id. */
  datatype Tables = Tables(
    crawlInfo: map<string, CrawlInfoRow>,
    posts: map<string, PostRow>,
    tags: set<string>,
    postTags: set<(string, string)>,
    nextCrawlInfoId: nat)

  /** Integrity of the tables: crawl-info ids are distinct and below the next
      id, every post refers to an existing crawl-info row, and every link
      joins an existing post and an existing tag. */
  ghost predicate TablesValid(t: Tables) {
    && (forall u :: u in t.crawlInfo ==> t.crawlInfo[u].id < t.nextCrawlInfoId)
    && (forall u, v :: u in t.crawlInfo && v in t.crawlInfo && u != v ==> t.crawlInfo[u].id != t.crawlInfo[v].id)
    && (forall h :: h in t.posts ==> exists u :: u in t.crawlInfo && t.crawlInfo[u].id == t.posts[h].crawlInfo)
    && (forall l :: l in t.postTags ==> l.0 in t.posts && l.1 in t.tags)
  }

  /** The fallible steps of storePost, in the order it takes them: the
      duplicate-url query, the image download, the JSON encoding, the start
      of the transaction, and the statements inside it. */
  datatype Step =
    | Lookup
    | Download
    | Marshal
    | Begin
    | InsertCrawlInfo
    | LastInsertId
    | InsertPost
    | InsertTag(name: string)
    | InsertLink(name: string)
    | Commit

  /** How storePost ended: it gave up before the transaction began, found the
      url already crawled, rolled the transaction back, or committed it. */
  datatype Outcome = Aborted(at: Step) | Duplicate | RolledBack | Committed

  /** Whether inserting the tag row or the link row of `tag` fails. */
  predicate TagFails(tag: string, fails: set<Step>) {
    InsertTag(tag) in fails || InsertLink(tag) in fails
  }

  /** Whether the tag or link insert of one of the tokens fails. */
  predicate SomeTagFails(tokens: seq<string>, fails: set<Step>) {
    exists k :: 0 <= k < |tokens| && TagFails(tokens[k], fails)
  }

  /** Whether some statement of the transaction fails, for a post with these
      tag tokens. */
  predicate TransactionFails(tokens: seq<string>, fails: set<Step>) {
    || InsertCrawlInfo in fails || LastInsertId in fails || InsertPost in fails || Commit in fails
    || SomeTagFails(tokens, fails)
  }

  /** Whether storePost gets as far as getImageExtensionFromURL, which
      slices the URL's runes by byte offsets. */
  predicate ReachesExtension(t: Tables, url: string, fails: set<Step>) {
    Lookup !in fails && url !in t.crawlInfo
  }

  /** Whether storePost gets as far as reading the post's source, which it
      dereferences without a nil check. */
  predicate ReachesSource(t: Tables, url: string, fails: set<Step>) {
    && ReachesExtension(t, url, fails) && Download !in fails
    && Marshal !in fails && Begin !in fails && InsertCrawlInfo !in fails && LastInsertId !in fails
  }

  /** What storePost needs in order not to panic: a URL whose extension it
      reads is ASCII (so the byte offsets stay within the rune array), and a
      post whose source it reads has one. */
  predicate Storable(t: Tables, url: string, source: Option<string>, fails: set<Step>) {
    && (ReachesExtension(t, url, fails) ==> IsAscii(url))
    && (ReachesSource(t, url, fails) ==> source.Some?)
  }

  /** An empty source is stored as NULL, any other source as it is. */
  function NormalizeSource(source: string): (stored: Option<string>)
    ensures stored.None? <==> source == []
    ensures stored.Some? ==> stored.value == source
  {
    if |source| == 0 then None else Some(source)
  }

  /** The tag rows a list of tokens calls for. */
  function TagRows(tokens: seq<string>): set<string> {
    if tokens == [] then {} else TagRows(tokens[..|tokens| - 1]) + {tokens[|tokens| - 1]}
  }

  /** The post_tag rows linking post `hash` to each token. */
  function LinkRows(hash: string, tokens: seq<string>): set<(string, string)> {
    if tokens == [] then {} else LinkRows(hash, tokens[..|tokens| - 1]) + {(hash, tokens[|tokens| - 1])}
  }

  /** The tag rows are the tokens, and the link rows join `hash` to each
      token. */
  lemma {:induction false} RowsMembership(hash: string, tokens: seq<string>)
    ensures forall x :: x in TagRows(tokens) <==> x in tokens
    ensures forall l :: l in LinkRows(hash, tokens) <==> l.0 == hash && l.1 in tokens
  {
    if tokens != [] {
      var init := tokens[..|tokens| - 1];
      RowsMembership(hash, init);
      assert tokens == init + [tokens[|tokens| - 1]];
    }
  }

  lemma RowsOfNone(hash: string, fails: set<Step>)
    ensures TagRows([]) == {} && LinkRows(hash, []) == {} && !SomeTagFails([], fails)
  {
  }

  lemma RowsOfAppend(hash: string, tokens: seq<string>, tag: string, fails: set<Step>)
    ensures TagRows(tokens + [tag]) == TagRows(tokens) + {tag}
    ensures LinkRows(hash, tokens + [tag]) == LinkRows(hash, tokens) + {(hash, tag)}
    ensures SomeTagFails(tokens + [tag], fails) <==> SomeTagFails(tokens, fails) || TagFails(tag, fails)
  {
    var ext := tokens + [tag];
    assert ext[..|ext| - 1] == tokens;
    if SomeTagFails(ext, fails) && !TagFails(tag, fails) {
      var k :| 0 <= k < |ext| && TagFails(ext[k], fails);
      assert k < |tokens| && ext[k] == tokens[k];
    }
    if SomeTagFails(tokens, fails) {
      var k :| 0 <= k < |tokens| && TagFails(tokens[k], fails);
      assert ext[k] == tokens[k];
    }
    if TagFails(tag, fails) {
      assert ext[|tokens|] == tag;
    }
  }

  /** The rows of a prefix of the tokens are among the rows of all of
      them. */
  lemma RowsOfPrefix(hash: string, front: seq<string>, tokens: seq<string>)
    requires front <= tokens
    ensures TagRows(front) <= TagRows(tokens) && LinkRows(hash, front) <= LinkRows(hash, tokens)
  {
    RowsMembership(hash, front);
    RowsMembership(hash, tokens);
    assert forall x :: x in front ==> x in tokens by {
      forall x | x in front ensures x in tokens {
        var k :| 0 <= k < |front| && front[k] == x;
        assert tokens[k] == x;
      }
    }
  }

  /** When the loop over the pieces stops at piece i, whose tag insert or
      link insert failed, the rows it has added are among those of all the
      tokens. */
  lemma FailedTagRowsBounded(hash: string, pieces: seq<string>, i: nat, done: seq<string>,
                             tags0: set<string>, links0: set<(string, string)>,
                             tags: set<string>, links: set<(string, string)>)
    requires i < |pieces| && TrimSpace(pieces[i]) != []
    requires Tokens(pieces[..i + 1]) == done + [TrimSpace(pieces[i])]
    requires tags == tags0 + TagRows(done) || tags == tags0 + TagRows(done) + {TrimSpace(pieces[i])}
    requires links == links0 + LinkRows(hash, done)
    ensures tags0 <= tags <= tags0 + TagRows(Tokens(pieces))
    ensures links0 <= links <= links0 + LinkRows(hash, Tokens(pieces))
  {
    TokensOfPrefix(pieces, i + 1);
    PrefixRowsBounded(hash, done, TrimSpace(pieces[i]), Tokens(pieces), tags0, links0, tags, links);
  }

  lemma PrefixRowsBounded(hash: string, front: seq<string>, tag: string, tokens: seq<string>,
                          tags0: set<string>, links0: set<(string, string)>,
                          tags: set<string>, links: set<(string, string)>)
    requires front + [tag] <= tokens
    requires tags == tags0 + TagRows(front) || tags == tags0 + TagRows(front) + {tag}
    requires links == links0 + LinkRows(hash, front)
    ensures tags0 <= tags <= tags0 + TagRows(tokens)
    ensures links0 <= links <= links0 + LinkRows(hash, tokens)
  {
    RowsOfPrefix(hash, front + [tag], tokens);
    RowsOfAppend(hash, front, tag, {});
  }

  /** A piece whose trimmed form is a failing tag makes the tags of all the
      pieces fail. */
  lemma FailingPieceFailsTokens(pieces: seq<string>, i: nat, fails: set<Step>)
    requires i < |pieces| && TrimSpace(pieces[i]) != [] && TagFails(TrimSpace(pieces[i]), fails)
    ensures SomeTagFails(Tokens(pieces), fails)
  {
    var tag := TrimSpace(pieces[i]);
    TokensStep(pieces, i);
    TokensOfPrefix(pieces, i + 1);
    assert Tokens(pieces)[|Tokens(pieces[..i])|] == tag;
  }

  /** The tables once the transaction for a post has committed. */
  function Recorded(t: Tables, url: string, source: string, tokens: seq<string>, hash: string, payload: string): Tables {
    var id := t.nextCrawlInfoId;
    Tables(
      t.crawlInfo[url := CrawlInfoRow(id, Site, payload)],
      if hash in t.posts then t.posts
      else t.posts[hash := PostRow(CrawlerAccount, id, NormalizeSource(source))],
      t.tags + TagRows(tokens),
      t.postTags + LinkRows(hash, tokens),
      id + 1)
  }

  /** What storePost does to the tables `t` for a post with file URL `url`,
      source `source` and tag tokens `tokens`, whose image has content hash
      `hash` and whose JSON text is `payload`, when the steps in `fails`
      fail: the outcome and the new tables. */
  function StoreSpec(t: Tables, url: string, source: Option<string>, tokens: seq<string>,
                     hash: string, payload: string, fails: set<Step>): (Outcome, Tables)
    requires Storable(t, url, source, fails)
  {
    if Lookup in fails then (Aborted(Lookup), t)
    else if url in t.crawlInfo then (Duplicate, t)
    else if Download in fails then (Aborted(Download), t)
    else if Marshal in fails then (Aborted(Marshal), t)
    else if Begin in fails then (Aborted(Begin), t)
    else if TransactionFails(tokens, fails) then (RolledBack, t)
    else (Committed, Recorded(t, url, source.value, tokens, hash, payload))
  }

  /** A post whose file URL was already crawled is skipped before any write. */
  lemma DuplicateUrlIsSkipped(t: Tables, url: string, source: Option<string>, tokens: seq<string>,
                              hash: string, payload: string, fails: set<Step>)
    requires Lookup !in fails && url in t.crawlInfo
    ensures StoreSpec(t, url, source, tokens, hash, payload, fails) == (Duplicate, t)
  {
  }

  /** All or nothing: unless the transaction commits, no table changes. */
  lemma FailureLeavesTablesUnchanged(t: Tables, url: string, source: Option<string>, tokens: seq<string>,
                                     hash: string, payload: string, fails: set<Step>)
    requires Storable(t, url, source, fails)
    ensures var (outcome, r) := StoreSpec(t, url, source, tokens, hash, payload, fails);
      outcome != Committed ==> r == t
  {
  }

  /** The transaction commits exactly when the url is new and no step fails. */
  lemma CommitsExactlyWhenNothingFails(t: Tables, url: string, source: Option<string>, tokens: seq<string>,
                                       hash: string, payload: string, fails: set<Step>)
    requires Storable(t, url, source, fails)
    ensures StoreSpec(t, url, source, tokens, hash, payload, fails).0 == Committed
      <==> ReachesSource(t, url, fails) && !TransactionFails(tokens, fails)
  {
  }

  /** After a commit: the url has its crawl-info row with the next id, the
      hash has a post row (the earlier one if there was one, otherwise a new
      one pointing at that crawl-info row with the normalised source), and
      every tag token is in the tag table and linked to the post, and no
      other tag or link was added. */
  lemma CommitRecordsPost(t: Tables, url: string, source: Option<string>, tokens: seq<string>,
                          hash: string, payload: string, fails: set<Step>)
    requires Storable(t, url, source, fails)
    requires StoreSpec(t, url, source, tokens, hash, payload, fails).0 == Committed
    ensures var r := StoreSpec(t, url, source, tokens, hash, payload, fails).1;
      && url in r.crawlInfo
      && r.crawlInfo[url] == CrawlInfoRow(t.nextCrawlInfoId, Site, payload)
      && hash in r.posts
      && r.posts[hash] == (if hash in t.posts then t.posts[hash]
                           else PostRow(CrawlerAccount, t.nextCrawlInfoId, NormalizeSource(source.value)))
      && (forall tok :: tok in r.tags <==> tok in t.tags || tok in tokens)
      && (forall l :: l in r.postTags <==> l in t.postTags || (l.0 == hash && l.1 in tokens))
  {
    RowsMembership(hash, tokens);
  }

  /** First writer wins and nothing is removed: rows present before storePost
      are present and unchanged after it, whatever its outcome. */
  lemma ExistingRowsAreKept(t: Tables, url: string, source: Option<string>, tokens: seq<string>,
                            hash: string, payload: string, fails: set<Step>)
    requires Storable(t, url, source, fails)
    ensures var r := StoreSpec(t, url, source, tokens, hash, payload, fails).1;
      && (forall h :: h in t.posts ==> h in r.posts && r.posts[h] == t.posts[h])
      && (forall u :: u in t.crawlInfo ==> u in r.crawlInfo && r.crawlInfo[u] == t.crawlInfo[u])
      && t.tags <= r.tags && t.postTags <= r.postTags
  {
  }

  /** Storing a post whose tags and links are all present already leaves the
      tag and post_tag tables as they were. */
  lemma KnownTagsAndLinksAreNoOps(t: Tables, url: string, source: Option<string>, tokens: seq<string>,
                                  hash: string, payload: string, fails: set<Step>)
    requires Storable(t, url, source, fails)
    requires forall tok :: tok in tokens ==> tok in t.tags && (hash, tok) in t.postTags
    ensures var r := StoreSpec(t, url, source, tokens, hash, payload, fails).1;
      r.tags == t.tags && r.postTags == t.postTags
  {
    RowsMembership(hash, tokens);
  }

  /** Re-crawling a stored post is a duplicate: once a post's transaction has
      committed, storing any post with the same file URL changes nothing. */
  lemma StoringAgainIsDuplicate(t: Tables, url: string, source: Option<string>, tokens: seq<string>,
                                hash: string, payload: string, fails: set<Step>,
                                source2: Option<string>, tokens2: seq<string>,
                                hash2: string, payload2: string, fails2: set<Step>)
    requires Storable(t, url, source, fails)
    requires StoreSpec(t, url, source, tokens, hash, payload, fails).0 == Committed
    requires Lookup !in fails2
    ensures var r := StoreSpec(t, url, source, tokens, hash, payload, fails).1;
      !ReachesSource(r, url, fails2) && StoreSpec(r, url, source2, tokens2, hash2, payload2, fails2) == (Duplicate, r)
  {
  }

  /** Recording a post under a url not yet crawled keeps the tables'
      integrity. */
  lemma RecordedPreservesValid(t: Tables, url: string, source: string, tokens: seq<string>,
                               hash: string, payload: string)
    requires TablesValid(t) && url !in t.crawlInfo
    ensures TablesValid(Recorded(t, url, source, tokens, hash, payload))
  {
    var r := Recorded(t, url, source, tokens, hash, payload);
    var id := t.nextCrawlInfoId;
    RowsMembership(hash, tokens);
    assert forall u :: u in r.crawlInfo ==> r.crawlInfo[u].id < r.nextCrawlInfoId;
    forall u, v | u in r.crawlInfo && v in r.crawlInfo && u != v
      ensures r.crawlInfo[u].id != r.crawlInfo[v].id
    {
      if u != url && v != url {
        assert r.crawlInfo[u] == t.crawlInfo[u] && r.crawlInfo[v] == t.crawlInfo[v];
      }
    }
    forall h | h in r.posts
      ensures exists u :: u in r.crawlInfo && r.crawlInfo[u].id == r.posts[h].crawlInfo
    {
      if h in t.posts {
        var u :| u in t.crawlInfo && t.crawlInfo[u].id == t.posts[h].crawlInfo;
        assert u != url && r.crawlInfo[u] == t.crawlInfo[u];
      } else {
        assert r.crawlInfo[url].id == id == r.posts[h].crawlInfo;
      }
    }
    assert forall l :: l in r.postTags ==> l.0 in r.posts && l.1 in r.tags;
  }

  /** storePost keeps the tables' integrity. */
  lemma StorePreservesValid(t: Tables, url: string, source: Option<string>, tokens: seq<string>,
                            hash: string, payload: string, fails: set<Step>)
    requires Storable(t, url, source, fails)
    requires TablesValid(t)
    ensures TablesValid(StoreSpec(t, url, source, tokens, hash, payload, fails).1)
  {
    if StoreSpec(t, url, source, tokens, hash, payload, fails).0 == Committed {
      RecordedPreservesValid(t, url, source.value, tokens, hash, payload);
    }
  }

  /** The database the crawler writes to, with its four tables. */
  class Db {
    var crawlInfo: map<string, CrawlInfoRow>
    var posts: map<string, PostRow>
    var tags: set<string>
    var postTags: set<(string, string)>
    var nextCrawlInfoId: nat

    function Contents(): Tables
      reads this
    {
      Tables(crawlInfo, posts, tags, postTags, nextCrawlInfoId)
    }

    ghost predicate Valid()
      reads this
    {
      TablesValid(Contents())
    }

    /** Empty tables. */
    constructor ()
      ensures Valid()
      ensures Contents() == Tables(map[], map[], {}, {}, 1)
    {
      crawlInfo, posts, tags, postTags, nextCrawlInfoId := map[], map[], {}, {}, 1;
    }

    /** tx.Rollback: every table goes back to what it held when the
        transaction began. */
    method Rollback(saved: Tables)
      modifies this
      ensures Contents() == saved
    {
      crawlInfo, posts, tags, postTags, nextCrawlInfoId :=
        saved.crawlInfo, saved.posts, saved.tags, saved.postTags, saved.nextCrawlInfoId;
    }

    /** The two inserts storePost makes for one tag: the tag row, if the
        tag is new, and the link from post `hash` to it, if not linked yet. */
    method InsertTagAndLink(hash: string, tag: string, fails: set<Step>) returns (failed: bool)
      modifies this
      ensures crawlInfo == old(crawlInfo) && posts == old(posts) && nextCrawlInfoId == old(nextCrawlInfoId)
      ensures failed <==> TagFails(tag, fails)
      ensures !failed ==> tags == old(tags) + {tag} && postTags == old(postTags) + {(hash, tag)}
      ensures failed ==> && postTags == old(postTags)
                         && tags == (if InsertTag(tag) in fails then old(tags) else old(tags) + {tag})
    {
      if InsertTag(tag) in fails {
        return true;
      }
      tags := tags + {tag};
      if InsertLink(tag) in fails {
        return true;
      }
      postTags := postTags + {(hash, tag)};
      return false;
    }

    /** The loop of storePost over the pieces of the tag string: each piece
        is trimmed and, unless empty, its tag and link are inserted. It stops
        at the first failing insert, leaving what it did so far for the
        caller to roll back. */
    method InsertTags(hash: string, pieces: seq<string>, fails: set<Step>) returns (failed: bool)
      modifies this
      ensures crawlInfo == old(crawlInfo) && posts == old(posts) && nextCrawlInfoId == old(nextCrawlInfoId)
      ensures failed <==> SomeTagFails(Tokens(pieces), fails)
      ensures !failed ==> (tags == old(tags) + TagRows(Tokens(pieces))
                           && postTags == old(postTags) + LinkRows(hash, Tokens(pieces)))
      ensures old(tags) <= tags <= old(tags) + TagRows(Tokens(pieces))
      ensures old(postTags) <= postTags <= old(postTags) + LinkRows(hash, Tokens(pieces))
    {
      var i := 0;
      ghost var done: seq<string> := [];
      assert pieces[..0] == [];
      RowsOfNone(hash, fails);
      while i < |pieces|
        invariant 0 <= i <= |pieces|
        invariant done == Tokens(pieces[..i])
        invariant crawlInfo == old(crawlInfo) && posts == old(posts) && nextCrawlInfoId == old(nextCrawlInfoId)
        invariant tags == old(tags) + TagRows(done)
        invariant postTags == old(postTags) + LinkRows(hash, done)
        invariant !SomeTagFails(done, fails)
      {
        var tag := TrimSpace(pieces[i]);
        assert Tokens(pieces[..i + 1]) == done + (if tag != [] then [tag] else []) by {
          TokensStep(pieces, i);
        }
        if |tag| > 0 {
          assert && TagRows(done + [tag]) == TagRows(done) + {tag}
                 && LinkRows(hash, done + [tag]) == LinkRows(hash, done) + {(hash, tag)}
                 && (SomeTagFails(done + [tag], fails) <==> TagFails(tag, fails)) by {
            RowsOfAppend(hash, done, tag, fails);
          }
          var tagFailed := InsertTagAndLink(hash, tag, fails);
          if tagFailed {
            assert SomeTagFails(Tokens(pieces), fails) by {
              FailingPieceFailsTokens(pieces, i, fails);
            }
            FailedTagRowsBounded(hash, pieces, i, done, old(tags), old(postTags), tags, postTags);
            return true;
          }
          done := done + [tag];
        }
        i := i + 1;
      }
      assert pieces[..i] == pieces;
      return false;
    }

    /** The transaction of storePost, once it has begun for post `p` whose
        file URL is not crawled yet: insert the crawl-info row, read its id,
        insert the post row unless the hash is stored already, insert the
        tags and links, and commit; on the first failing statement roll
        back. */
    method StoreInTransaction(p: RemotePost, hash: string, payload: string, fails: set<Step>) returns (outcome: Outcome)
      requires InsertCrawlInfo !in fails && LastInsertId !in fails ==> p.source.Some?
      requires p.fileURL !in crawlInfo
      modifies this
      ensures var tokens := TagTokens(p.tags);
        && outcome == (if TransactionFails(tokens, fails) then RolledBack else Committed)
        && Contents() == (if TransactionFails(tokens, fails) then old(Contents())
                          else Recorded(old(Contents()), p.fileURL, p.source.value, tokens, hash, payload))
    {
      var saved := Contents();
      if InsertCrawlInfo in fails {
        Rollback(saved);
        return RolledBack;
      }
      var crawlInfoId := nextCrawlInfoId;
      crawlInfo := crawlInfo[p.fileURL := CrawlInfoRow(crawlInfoId, Site, payload)];
      nextCrawlInfoId := nextCrawlInfoId + 1;
      if LastInsertId in fails {
        Rollback(saved);
        return RolledBack;
      }
      var source := NormalizeSource(p.source.value);
      if InsertPost in fails {
        Rollback(saved);
        return RolledBack;
      }
      if hash !in posts {
        posts := posts[hash := PostRow(CrawlerAccount, crawlInfoId, source)];
      }
      var tagFailed := InsertTags(hash, Split(p.tags, ' '), fails);
      if tagFailed {
        Rollback(saved);
        return RolledBack;
      }
      if Commit in fails {
        Rollback(saved);
        return RolledBack;
      }
      return Committed;
    }

    /** storePost for post `p`, whose image has content hash `hash` and whose
        JSON text is `payload`; the steps in `fails` fail. */
    method StorePost(p: RemotePost, hash: string, payload: string, fails: set<Step>) returns (outcome: Outcome)
      requires Storable(Contents(), p.fileURL, p.source, fails)
      modifies this
      ensures (outcome, Contents()) == StoreSpec(old(Contents()), p.fileURL, p.source, TagTokens(p.tags), hash, payload, fails)
      ensures old(Valid()) ==> Valid()
    {
      if Lookup in fails {
        return Aborted(Lookup);
      }
      if p.fileURL in crawlInfo {
        // already crawled
        return Duplicate;
      }
      // getImageExtensionFromURL stays within the runes of an ASCII URL, even
      // when the rune array has no room beyond its length
      ImageExtensionAsWrittenOnAscii(p.fileURL, |p.fileURL|);
      if Download in fails {
        return Aborted(Download);
      }
      if Marshal in fails {
        return Aborted(Marshal);
      }
      if Begin in fails {
        return Aborted(Begin);
      }
      ghost var before := Contents();
      outcome := StoreInTransaction(p, hash, payload, fails);
      if TablesValid(before) {
        StorePreservesValid(before, p.fileURL, p.source, TagTokens(p.tags), hash, payload, fails);
      }
    }
  }
}

=== FILE: go_text.dfy ===
/** Models of the Go standard-library routines that the crawler and the HTTP
    API apply to strings: unicode.IsSpace, unicode.IsDigit, strings.ToLower,
    strings.Split, strings.TrimSpace, strings.Fields, strings.LastIndex,
    fmt's %d verb and strconv.Atoi. A Go string is modelled as the sequence
    of its runes. */
module GoText {

  // ---------------------------------------------------------------------
  // Character classes
  // ---------------------------------------------------------------------

  /** unicode.IsSpace: '\t', '\n', '\v', '\f', '\r', ' ', U+0085 and U+00A0
      in Latin-1; above Latin-1 the characters with the Unicode White_Space
      property. */
  predicate IsSpace(c: char) {
    var x := c as int;
    (9 <= x <= 13) || x == 0x20 || x == 0x85 || x == 0xA0
    || x == 0x1680 || (0x2000 <= x <= 0x200A) || x == 0x2028 || x == 0x2029
    || x == 0x202F || x == 0x205F || x == 0x3000
  }

  /** First code points of the runs of ten decimal digits (Unicode general
      category Nd, Unicode 15.0) above Latin-1. The mathematical digits
      U+1D7CE..U+1D7FF form one longer run and are handled separately. */
  const DigitBlocks: seq<int> := [
    0x0660, 0x06F0, 0x07C0, 0x0966, 0x09E6, 0x0A66, 0x0AE6, 0x0B66, 0x0BE6,
    0x0C66, 0x0CE6, 0x0D66, 0x0DE6, 0x0E50, 0x0ED0, 0x0F20, 0x1040, 0x1090,
    0x17E0, 0x1810, 0x1946, 0x19D0, 0x1A80, 0x1A90, 0x1B50, 0x1BB0, 0x1C40,
    0x1C50, 0xA620, 0xA8D0, 0xA900, 0xA9D0, 0xA9F0, 0xAA50, 0xABF0, 0xFF10,
    0x104A0, 0x10D30, 0x11066, 0x110F0, 0x11136, 0x111D0, 0x112F0, 0x11450,
    0x114D0, 0x11650, 0x116C0, 0x11730, 0x118E0, 0x11950, 0x11C50, 0x11D50,
    0x11DA0, 0x11F50, 0x16A60, 0x16AC0, 0x16B50, 0x1E140, 0x1E2F0, 0x1E4F0,
    0x1E950, 0x1FBF0]

  /** unicode.IsDigit: in Latin-1 exactly '0'..'9'; above Latin-1 every
      decimal digit of any script. */
  predicate IsDigit(c: char) {
    var x := c as int;
    if x <= 0xFF then IsAsciiDigit(c)
    else (0x1D7CE <= x <= 0x1D7FF)
         || exists k :: 0 <= k < |DigitBlocks| && DigitBlocks[k] <= x < DigitBlocks[k] + 10
  }

  predicate IsAsciiDigit(c: char) {
    '0' <= c <= '9'
  }

  predicate IsAscii(s: string) {
    forall k :: 0 <= k < |s| ==> s[k] as int < 0x80
  }

  // ---------------------------------------------------------------------
  // strings.ToLower
  // ---------------------------------------------------------------------

  /** unicode.ToLower restricted to the characters whose lower-case form is
      one of 'a'..'z': 'A'..'Z', U+0130 (capital I with dot) and U+212A
      (Kelvin sign). Every other character is returned unchanged. */
  function ToLowerRune(c: char): (r: char)
    ensures 'a' <= r <= 'z' <==> ('a' <= c <= 'z' || 'A' <= c <= 'Z' || c == '\U{0130}' || c == '\U{212A}')
    ensures r != c ==> 'a' <= r <= 'z'
  {
    if 'A' <= c <= 'Z' then (c as int + 32) as char
    else if c == '\U{0130}' then 'i'
    else if c == '\U{212A}' then 'k'
    else c
  }

  /** strings.ToLower maps every rune on its own, so the rune count is kept. */
  function ToLower(s: string): (r: string)
    ensures |r| == |s|
    ensures forall k :: 0 <= k < |s| ==> r[k] == ToLowerRune(s[k])
  {
    seq(|s|, k requires 0 <= k < |s| => ToLowerRune(s[k]))
  }

  // ---------------------------------------------------------------------
  // strings.Split with a one-rune separator, and its inverse
  // ---------------------------------------------------------------------

  /** strings.Split(s, sep): the pieces between occurrences of sep; an empty
      string gives one empty piece. */
  function Split(s: string, sep: char): (parts: seq<string>)
    ensures |parts| >= 1
    ensures forall k :: 0 <= k < |parts| ==> sep !in parts[k]
  {
    if s == [] then [[]]
    else
      var rest := Split(s[1..], sep);
      if s[0] == sep then [[]] + rest
      else [[s[0]] + rest[0]] + rest[1..]
  }

  /** strings.Join with a one-rune separator. */
  function Join(parts: seq<string>, sep: char): string {
    if |parts| == 0 then []
    else if |parts| == 1 then parts[0]
    else parts[0] + [sep] + Join(parts[1..], sep)
  }

  /** Joining the pieces of a split gives back the original string. */
  lemma {:induction false} JoinSplit(s: string, sep: char)
    ensures Join(Split(s, sep), sep) == s
  {
    if s != [] {
      var rest := Split(s[1..], sep);
      JoinSplit(s[1..], sep);
      if s[0] == sep {
        assert ([[]] + rest)[1..] == rest;
      } else {
        var parts := [[s[0]] + rest[0]] + rest[1..];
        assert Split(s, sep) == parts;
        if |rest| > 1 {
          assert parts[1..] == rest[1..];
        }
      }
    }
  }

  lemma {:induction false} SplitWithoutSep(a: string, sep: char)
    requires sep !in a
    ensures Split(a, sep) == [a]
  {
    if a != [] {
      SplitWithoutSep(a[1..], sep);
      assert a[0] != sep && a == [a[0]] + a[1..];
    }
  }

  lemma {:induction false} SplitAtFirstSep(a: string, b: string, sep: char)
    requires sep !in a
    ensures Split(a + [sep] + b, sep) == [a] + Split(b, sep)
  {
    var s := a + [sep] + b;
    if a == [] {
      assert s[1..] == b;
    } else {
      assert s[0] == a[0] != sep && s[1..] == a[1..] + [sep] + b;
      SplitAtFirstSep(a[1..], b, sep);
      assert [a[0]] + a[1..] == a;
    }
  }

  /** Splitting a join of separator-free pieces gives back the pieces. */
  lemma {:induction false} SplitJoin(parts: seq<string>, sep: char)
    requires |parts| >= 1
    requires forall k :: 0 <= k < |parts| ==> sep !in parts[k]
    ensures Split(Join(parts, sep), sep) == parts
  {
    if |parts| == 1 {
      SplitWithoutSep(parts[0], sep);
    } else {
      SplitJoin(parts[1..], sep);
      SplitAtFirstSep(parts[0], Join(parts[1..], sep), sep);
    }
  }

  // ---------------------------------------------------------------------
  // strings.TrimSpace
  // ---------------------------------------------------------------------

  /** Drops the leading white space: a suffix of s that is empty or starts
      with a rune that is not white space. */
  function TrimLeft(s: string): (r: string)
    ensures |r| <= |s| && r == s[|s| - |r|..]
    ensures r == [] || !IsSpace(r[0])
  {
    if s != [] && IsSpace(s[0]) then TrimLeft(s[1..]) else s
  }

  /** The index of the first rune of s at or after i that is not white
      space, or |s| when there is none. */
  function SkipSpace(s: string, i: nat): (j: nat)
    requires i <= |s|
    ensures i <= j <= |s|
    ensures j < |s| ==> !IsSpace(s[j])
    decreases |s| - i
  {
    if i < |s| && IsSpace(s[i]) then SkipSpace(s, i + 1) else i
  }

  /** The runes SkipSpace passes over are white space. */
  lemma {:induction false} SkipSpaceSkipsSpace(s: string, i: nat)
    requires i <= |s|
    ensures forall k :: i <= k < SkipSpace(s, i) ==> IsSpace(s[k])
    decreases |s| - i
  {
    if i < |s| && IsSpace(s[i]) {
      SkipSpaceSkipsSpace(s, i + 1);
    }
  }

  /** The end of s[i..j] once its trailing white space is dropped. */
  function SkipSpaceBack(s: string, i: nat, j: nat): (k: nat)
    requires i <= j <= |s|
    ensures i <= k <= j
    ensures i < k ==> !IsSpace(s[k - 1])
    decreases j
  {
    if i < j && IsSpace(s[j - 1]) then SkipSpaceBack(s, i, j - 1) else j
  }

  /** The runes SkipSpaceBack passes over are white space. */
  lemma {:induction false} SkipSpaceBackSkipsSpace(s: string, i: nat, j: nat)
    requires i <= j <= |s|
    ensures forall k :: SkipSpaceBack(s, i, j) <= k < j ==> IsSpace(s[k])
    decreases j
  {
    if i < j && IsSpace(s[j - 1]) {
      SkipSpaceBackSkipsSpace(s, i, j - 1);
    }
  }

  /** strings.TrimSpace: the slice of s left once the white space at both
      ends is removed; it neither starts nor ends with white space. */
  function TrimSpace(s: string): (r: string)
    ensures |r| <= |s|
    ensures r != [] ==> !IsSpace(r[0]) && !IsSpace(r[|r| - 1])
  {
    var i := SkipSpace(s, 0);
    s[i..SkipSpaceBack(s, i, |s|)]
  }

  /** TrimSpace(s) is the slice of s that starts at its first rune that is
      not white space, and what it drops at either end is white space. */
  lemma TrimSpaceDropsSpace(s: string)
    ensures var i := SkipSpace(s, 0);
      && i + |TrimSpace(s)| <= |s|
      && TrimSpace(s) == s[i..i + |TrimSpace(s)|]
      && (forall k :: 0 <= k < i ==> IsSpace(s[k]))
      && (forall k :: i + |TrimSpace(s)| <= k < |s| ==> IsSpace(s[k]))
  {
    var i := SkipSpace(s, 0);
    SkipSpaceSkipsSpace(s, 0);
    SkipSpaceBackSkipsSpace(s, i, |s|);
  }

  /** A trimmed string is empty exactly when every rune was white space. */
  lemma TrimSpaceEmpty(s: string)
    ensures TrimSpace(s) == [] <==> forall k :: 0 <= k < |s| ==> IsSpace(s[k])
  {
    var i := SkipSpace(s, 0);
    var r := TrimSpace(s);
    TrimSpaceDropsSpace(s);
    if r != [] {
      assert s[i] == r[0];
    }
  }

  /** Trimming never introduces a rune that was not in s. */
  lemma TrimSpaceSubset(s: string, c: char)
    requires c in TrimSpace(s)
    ensures c in s
  {
    var i := SkipSpace(s, 0);
    var r := TrimSpace(s);
    TrimSpaceDropsSpace(s);
    var j :| 0 <= j < |r| && r[j] == c;
    assert s[i + j] == c;
  }

  // ---------------------------------------------------------------------
  // strings.Fields
  // ---------------------------------------------------------------------

  /** A field: a non-empty run of runes none of which is white space. */
  predicate IsWord(w: string) {
    w != [] && forall j :: 0 <= j < |w| ==> !IsSpace(w[j])
  }

  /** The longest prefix of s that holds no white space. */
  function Word(s: string): (w: string)
    ensures |w| <= |s| && w == s[..|w|]
    ensures forall j :: 0 <= j < |w| ==> !IsSpace(w[j])
    ensures |w| < |s| ==> IsSpace(s[|w|])
  {
    if s == [] || IsSpace(s[0]) then [] else [s[0]] + Word(s[1..])
  }

  /** strings.Fields: the maximal runs of non-white-space runes, in order. */
  function Fields(s: string): (fs: seq<string>)
    ensures forall k :: 0 <= k < |fs| ==> IsWord(fs[k])
    decreases |s|
  {
    var t := TrimLeft(s);
    if t == [] then []
    else
      var w := Word(t);
      assert w != [] by {
        assert !IsSpace(t[0]);
      }
      var rest := Fields(t[|w|..]);
      WordsCons(w, rest);
      [w] + rest
  }

  lemma WordsCons(w: string, rest: seq<string>)
    requires IsWord(w)
    requires forall k :: 0 <= k < |rest| ==> IsWord(rest[k])
    ensures forall k :: 0 <= k < |[w] + rest| ==> IsWord(([w] + rest)[k])
  {
  }

  lemma {:induction false} WordOfPrefix(w: string, tail: string)
    requires forall j :: 0 <= j < |w| ==> !IsSpace(w[j])
    requires tail == [] || IsSpace(tail[0])
    ensures Word(w + tail) == w
  {
    if w == [] {
    } else {
      assert (w + tail)[1..] == w[1..] + tail;
      WordOfPrefix(w[1..], tail);
    }
  }

  lemma FieldsSkipsSpace(c: char, x: string)
    requires IsSpace(c)
    ensures Fields([c] + x) == Fields(x)
  {
    assert ([c] + x)[1..] == x;
    assert TrimLeft([c] + x) == TrimLeft(x);
  }

  lemma FieldsOfWordThen(w: string, tail: string)
    requires IsWord(w)
    requires tail == [] || IsSpace(tail[0])
    ensures Fields(w + tail) == [w] + Fields(tail)
  {
    var s := w + tail;
    assert s[0] == w[0];
    assert TrimLeft(s) == s;
    WordOfPrefix(w, tail);
    assert s[|w|..] == tail;
  }

  lemma FieldsOfWordSpaceThen(w: string, rest: string)
    requires IsWord(w)
    ensures Fields(w + [' '] + rest) == [w] + Fields(rest)
  {
    assert w + [' '] + rest == w + ([' '] + rest);
    FieldsOfWordThen(w, [' '] + rest);
    FieldsSkipsSpace(' ', rest);
  }

  lemma FieldsEmpty()
    ensures Fields([]) == []
  {
    assert TrimLeft([]) == [];
  }

  /** Fields recovers the words of a space-separated list of words. */
  lemma {:induction false} FieldsOfJoin(ws: seq<string>)
    requires forall k :: 0 <= k < |ws| ==> IsWord(ws[k])
    ensures Fields(Join(ws, ' ')) == ws
    decreases |ws|, 1
  {
    if ws == [] {
      FieldsEmpty();
    } else if |ws| == 1 {
      FieldsOfSingleWord(ws[0]);
    } else {
      FieldsOfJoinCons(ws);
    }
  }

  lemma FieldsOfSingleWord(w: string)
    requires IsWord(w)
    ensures Fields(Join([w], ' ')) == [w]
  {
    assert Join([w], ' ') == w + [];
    FieldsOfWordThen(w, []);
    FieldsEmpty();
  }

  lemma {:induction false} FieldsOfJoinCons(ws: seq<string>)
    requires |ws| > 1
    requires forall k :: 0 <= k < |ws| ==> IsWord(ws[k])
    ensures Fields(Join(ws, ' ')) == ws
    decreases |ws|, 0
  {
    var w, tail := ws[0], ws[1..];
    var rest := Join(tail, ' ');
    assert ws == [w] + tail;
    assert Join(ws, ' ') == w + [' '] + rest;
    assert Fields(rest) == tail by {
      FieldsOfJoin(tail);
    }
    assert Fields(w + [' '] + rest) == [w] + Fields(rest) by {
      FieldsOfWordSpaceThen(w, rest);
    }
  }

  // ---------------------------------------------------------------------
  // strings.LastIndex with a one-rune needle
  // ---------------------------------------------------------------------

  /** The index of the last occurrence of c in s, or -1 if there is none. */
  function LastIndex(s: string, c: char): (i: int)
    ensures -1 <= i < |s|
    ensures i >= 0 ==> s[i] == c
    ensures forall k :: i < k < |s| ==> s[k] != c
  {
    if s == [] then -1
    else if s[|s| - 1] == c then |s| - 1
    else LastIndex(s[..|s| - 1], c)
  }

  // ---------------------------------------------------------------------
  // UTF-8 lengths: Go strings are bytes, the model's strings are runes
  // ---------------------------------------------------------------------

  /** The number of bytes of the UTF-8 encoding of a rune. */
  function Utf8Size(c: char): (n: nat)
    ensures 1 <= n <= 4
    ensures n == 1 <==> c as int < 0x80
  {
    if c as int < 0x80 then 1
    else if c as int < 0x800 then 2
    else if c as int < 0x10000 then 3
    else 4
  }

  /** The number of bytes of the UTF-8 encoding of a string: Go's len. */
  function Utf8Length(s: string): (n: nat)
    ensures |s| <= n <= 4 * |s|
  {
    if s == [] then 0 else Utf8Size(s[0]) + Utf8Length(s[1..])
  }

  /** An ASCII string has as many bytes as runes. */
  lemma {:induction false} Utf8LengthOfAscii(s: string)
    requires IsAscii(s)
    ensures Utf8Length(s) == |s|
  {
    if s != [] {
      assert s[0] as int < 0x80;
      Utf8LengthOfAscii(s[1..]);
    }
  }

  // ---------------------------------------------------------------------
  // Decimal numbers: fmt's %d and strconv.Atoi on a 64-bit platform
  // ---------------------------------------------------------------------

  const MaxInt64: int := 0x7FFF_FFFF_FFFF_FFFF
  const MinInt64: int := -0x8000_0000_0000_0000

  function DigitChar(d: nat): (c: char)
    requires d < 10
    ensures IsAsciiDigit(c)
  {
    (('0' as int) + d) as char
  }

  function DigitValue(c: char): nat
    requires IsAsciiDigit(c)
  {
    (c as int) - ('0' as int)
  }

  predicate IsDecimal(s: string) {
    s != [] && forall k :: 0 <= k < |s| ==> IsAsciiDigit(s[k])
  }

  /** %d of a non-negative integer: its decimal digits, most significant first. */
  function FormatNat(n: nat): (s: string)
    ensures IsDecimal(s)
    ensures (s[0] == '0') <==> n == 0
  {
    if n < 10 then [DigitChar(n)]
    else FormatNat(n / 10) + [DigitChar(n % 10)]
  }

  /** %d of any integer: a '-' in front of the digits of a negative one. */
  function FormatInt(n: int): (s: string)
    ensures s != []
    ensures (s[0] == '-') <==> n < 0
  {
    if n < 0 then "-" + FormatNat(-n) else FormatNat(n)
  }

  /** The value of a string of decimal digits. */
  function DigitsValue(s: string): nat
    requires forall k :: 0 <= k < |s| ==> IsAsciiDigit(s[k])
  {
    if s == [] then 0
    else DigitsValue(s[..|s| - 1]) * 10 + DigitValue(s[|s| - 1])
  }

  /** Reading back the digits that %d wrote gives the number. */
  lemma {:induction false} DigitsValueOfFormat(n: nat)
    ensures DigitsValue(FormatNat(n)) == n
  {
    var s := FormatNat(n);
    if n >= 10 {
      assert s[..|s| - 1] == FormatNat(n / 10);
      DigitsValueOfFormat(n / 10);
    }
  }

  /** Different numbers are written differently by %d. */
  lemma FormatIntInjective(m: int, n: int)
    requires FormatInt(m) == FormatInt(n)
    ensures m == n
  {
    if m < 0 {
      assert FormatNat(-m) == FormatInt(m)[1..] == FormatInt(n)[1..] == FormatNat(-n);
      DigitsValueOfFormat(-m);
      DigitsValueOfFormat(-n);
    } else {
      DigitsValueOfFormat(m);
      DigitsValueOfFormat(n);
    }
  }

  const MaxUint64: int := 0xFFFF_FFFF_FFFF_FFFF

  /** The text after an optional leading '+' or '-'. */
  function Unsigned(s: string): (u: string)
    ensures u == s || (s != [] && (s[0] == '+' || s[0] == '-') && u == s[1..])
    ensures s != [] && IsAsciiDigit(s[0]) ==> u == s
  {
    if s != [] && (s[0] == '+' || s[0] == '-') then s[1..] else s
  }

  /** The end of the run of ASCII digits that starts at position i. */
  function DigitEnd(s: string, i: nat): (j: nat)
    requires i <= |s|
    ensures i <= j <= |s|
    ensures j < |s| ==> !IsAsciiDigit(s[j])
    decreases |s| - i
  {
    if i < |s| && IsAsciiDigit(s[i]) then DigitEnd(s, i + 1) else i
  }

  lemma {:induction false} DigitEndSkipsDigits(s: string, i: nat)
    requires i <= |s|
    ensures forall k :: i <= k < DigitEnd(s, i) ==> IsAsciiDigit(s[k])
    decreases |s| - i
  {
    if i < |s| && IsAsciiDigit(s[i]) {
      DigitEndSkipsDigits(s, i + 1);
    }
  }

  /** The longest prefix of s made of ASCII digits: what ParseUint reads
      before it meets a byte that is not a digit. */
  function LeadingDigits(s: string): (d: string)
    ensures d <= s
    ensures forall k :: 0 <= k < |d| ==> IsAsciiDigit(d[k])
    ensures |d| < |s| ==> !IsAsciiDigit(s[|d|])
  {
    DigitEndSkipsDigits(s, 0);
    s[..DigitEnd(s, 0)]
  }

  lemma {:induction false} DigitEndOfDecimal(d: string, rest: string, i: nat)
    requires IsDecimal(d) && i <= |d|
    requires rest == [] || !IsAsciiDigit(rest[0])
    ensures DigitEnd(d + rest, i) == |d|
    decreases |d| - i
  {
    if i < |d| {
      assert (d + rest)[i] == d[i];
      DigitEndOfDecimal(d, rest, i + 1);
    } else if rest != [] {
      assert (d + rest)[i] == rest[0];
    }
  }

  /** The leading digits of a decimal followed by a non-digit are that
      decimal. */
  lemma LeadingDigitsOfDecimal(d: string, rest: string)
    requires IsDecimal(d)
    requires rest == [] || !IsAsciiDigit(rest[0])
    ensures LeadingDigits(d + rest) == d
  {
    DigitEndOfDecimal(d, rest, 0);
    assert (d + rest)[..|d|] == d;
  }

  /** A value with a sign, brought into the 64-bit range: ParseInt's
      clamp. */
  function Clamp(negative: bool, v: nat): (n: int)
    ensures MinInt64 <= n <= MaxInt64
    ensures n == 0 <==> v == 0
    ensures v <= MaxInt64 ==> n == (if negative then -(v as int) else v)
    ensures !negative && v > MaxInt64 ==> n == MaxInt64
    ensures negative && v >= -MinInt64 ==> n == MinInt64
  {
    if negative then (if v > -MinInt64 then MinInt64 else -(v as int))
    else (if v > MaxInt64 then MaxInt64 else v)
  }

  /** strconv.Atoi with its error ignored. After an optional sign, ParseUint
      reads the text digit by digit: a byte that is not a digit ends the
      reading with 0, unless the digits before it have already gone past
      2^64 - 1, in which case the reading has stopped there with the largest
      value and ParseInt clamps it. Digits to the end of the text are read
      as a number clamped to the 64-bit range; an empty digit run is 0. */
  function Atoi(s: string): (n: int)
    ensures MinInt64 <= n <= MaxInt64
    ensures n != 0 ==> IsDecimal(Unsigned(s)) || DigitsValue(LeadingDigits(Unsigned(s))) > MaxUint64
    ensures n > 0 ==> s == [] || s[0] != '-'
    ensures n < 0 ==> s != [] && s[0] == '-'
  {
    var negative := s != [] && s[0] == '-';
    var digits := Unsigned(s);
    if IsDecimal(digits) then Clamp(negative, DigitsValue(digits))
    else
      var v := DigitsValue(LeadingDigits(digits));
      if v > MaxUint64 then Clamp(negative, v) else 0
  }

  /** Atoi reads back every 64-bit integer that %d writes. */
  lemma AtoiOfFormat(n: int)
    requires MinInt64 <= n <= MaxInt64
    ensures Atoi(FormatInt(n)) == n
  {
    var s := FormatInt(n);
    if n < 0 {
      assert s[1..] == FormatNat(-n);
      DigitsValueOfFormat(-n);
    } else {
      assert IsAsciiDigit(s[0]);
      DigitsValueOfFormat(n);
    }
  }

  /** Digits past 2^64 - 1 followed by a non-digit overflow ParseUint before
      it sees the non-digit. */
  lemma OverflowBeforeRest(d: string, rest: string)
    requires IsDecimal(d) && DigitsValue(d) > MaxUint64
    requires rest == [] || !IsAsciiDigit(rest[0])
    ensures IsDecimal(d + rest) ==> d + rest == d
    ensures !IsDecimal(d + rest) ==> DigitsValue(LeadingDigits(d + rest)) > MaxUint64
  {
    if rest == [] {
      assert d + rest == d;
    } else {
      assert (d + rest)[|d|] == rest[0];
      LeadingDigitsOfDecimal(d, rest);
    }
  }

  /** Digits that go past 2^64 - 1 give the clamped value whatever follows
      them: the reading stops at the overflow before the rest is seen. */
  lemma AtoiOverflowIgnoresRest(sign: string, d: string, rest: string)
    requires sign == "" || sign == "+" || sign == "-"
    requires IsDecimal(d) && DigitsValue(d) > MaxUint64
    requires rest == [] || !IsAsciiDigit(rest[0])
    ensures Atoi(sign + (d + rest)) == if sign == "-" then MinInt64 else MaxInt64
  {
    var u := d + rest;
    var s := sign + u;
    assert Unsigned(s) == u && ((s != [] && s[0] == '-') <==> sign == "-") by {
      if sign == "" {
        assert s == u && s[0] == d[0];
      } else {
        assert s[1..] == u && s[0] == sign[0];
      }
    }
    OverflowBeforeRest(d, rest);
  }

  /** The digits of 2^64 followed by a letter read as the largest int64,
      not as 0. */
  lemma AtoiOfOverflowThenLetter()
    ensures Atoi(FormatNat(MaxUint64 + 1) + "x") == MaxInt64
  {
    DigitsValueOfFormat(MaxUint64 + 1);
    assert "" + (FormatNat(MaxUint64 + 1) + "x") == FormatNat(MaxUint64 + 1) + "x";
    AtoiOverflowIgnoresRest("", FormatNat(MaxUint64 + 1), "x");
  }
}

=== FILE: posts.dfy ===
/** The post search of GET /api/post: the query string is split into tags
    to include and tags to exclude, the page is read from the request, the
    positional arguments of the post query are laid out, and the ids of the
    posts found are collected for the tag statistics query. The database is
    a parameter: functions from a query's arguments to its rows. */
module Posts {
  import opened Wrappers
  import opened GoText

  type uint64 = x: int | 0 <= x < 0x1_0000_0000_0000_0000

  /** One row of the post query. */
  datatype PostSummary = PostSummary(
    id: uint64,
    source: Option<string>,
    hash: string,
    createdAt: string,
    updatedAt: Option<string>)

  /** One row of the tag statistics query. */
  datatype TagStat = TagStat(id: uint64, name: string, count: int)

  /** A positional query argument: a list of names, expanded into an IN
      list, or an integer. */
  datatype Arg = Strings(values: seq<string>) | Int(value: int)

  /** What a select returns. */
  datatype Select<T> = Rows(rows: seq<T>) | SelectFailed(reason: string)

  const DefaultOrder: string := "id DESC"
  const DefaultLimit: int := 40

  /** Whether a field of the query names a tag to include: it does not start
      with '-'. */
  predicate IsIncludeTerm(field: string) {
    |field| != 0 && field[0] != '-'
  }

  /** Whether every field is non-empty, as every field of strings.Fields
      is. */
  predicate NonEmptyFields(fields: seq<string>) {
    forall k :: 0 <= k < |fields| ==> fields[k] != []
  }

  /** The tags to include that the fields name, in order. */
  function IncludedTerms(fields: seq<string>): (tags: seq<string>)
    ensures |tags| <= |fields|
  {
    if fields == [] then []
    else
      var f := fields[|fields| - 1];
      IncludedTerms(fields[..|fields| - 1]) + (if IsIncludeTerm(f) then [f] else [])
  }

  /** The tags to exclude that the fields name, in order: each field that
      starts with '-', without that '-'. */
  function ExcludedTerms(fields: seq<string>): (exclude: seq<string>)
    requires NonEmptyFields(fields)
    ensures |exclude| <= |fields|
  {
    if fields == [] then []
    else
      var f := fields[|fields| - 1];
      ExcludedTerms(fields[..|fields| - 1]) + (if IsIncludeTerm(f) then [] else [f[1..]])
  }

  /** Every field lands in exactly one of the two lists. */
  lemma {:induction false} TermsPartition(fields: seq<string>)
    requires NonEmptyFields(fields)
    ensures |IncludedTerms(fields)| + |ExcludedTerms(fields)| == |fields|
  {
    if fields != [] {
      TermsPartition(fields[..|fields| - 1]);
    }
  }

  /** Splitting keeps the order of the fields: the terms of a concatenation
      are the terms of each part, one after the other. */
  lemma TermsOfAppend(a: seq<string>, b: seq<string>)
    requires NonEmptyFields(a) && NonEmptyFields(b)
    ensures IncludedTerms(a + b) == IncludedTerms(a) + IncludedTerms(b)
    ensures ExcludedTerms(a + b) == ExcludedTerms(a) + ExcludedTerms(b)
  {
    IncludedOfAppend(a, b);
    ExcludedOfAppend(a, b);
  }

  lemma {:induction false} IncludedOfAppend(a: seq<string>, b: seq<string>)
    ensures IncludedTerms(a + b) == IncludedTerms(a) + IncludedTerms(b)
    decreases |b|
  {
    var ab := a + b;
    if b == [] {
      assert ab == a;
    } else {
      assert ab[..|ab| - 1] == a + b[..|b| - 1] && ab[|ab| - 1] == b[|b| - 1];
      IncludedOfAppend(a, b[..|b| - 1]);
    }
  }

  lemma {:induction false} ExcludedOfAppend(a: seq<string>, b: seq<string>)
    requires NonEmptyFields(a) && NonEmptyFields(b)
    ensures NonEmptyFields(a + b)
    ensures ExcludedTerms(a + b) == ExcludedTerms(a) + ExcludedTerms(b)
    decreases |b|
  {
    var ab := a + b;
    if b == [] {
      assert ab == a;
    } else {
      var init := b[..|b| - 1];
      assert NonEmptyFields(init);
      assert ab[..|ab| - 1] == a + init && ab[|ab| - 1] == b[|b| - 1];
      ExcludedOfAppend(a, init);
    }
  }

  /** One more field adds itself to the include list or its remainder to
      the exclude list. */
  lemma TermsStep(fields: seq<string>, i: nat)
    requires NonEmptyFields(fields) && i < |fields|
    ensures NonEmptyFields(fields[..i]) && NonEmptyFields(fields[..i + 1])
    ensures var f := fields[i];
      && IncludedTerms(fields[..i + 1]) == IncludedTerms(fields[..i]) + (if IsIncludeTerm(f) then [f] else [])
      && ExcludedTerms(fields[..i + 1]) == ExcludedTerms(fields[..i]) + (if IsIncludeTerm(f) then [] else [f[1..]])
  {
    assert fields[..i + 1][..i] == fields[..i];
  }

  /** The include list holds exactly the fields that do not start with '-';
      the exclude list holds exactly the remainders of those that do. */
  lemma {:induction false} TermsMembership(fields: seq<string>, t: string)
    requires NonEmptyFields(fields)
    ensures t in IncludedTerms(fields) <==> t in fields && IsIncludeTerm(t)
    ensures t in ExcludedTerms(fields) <==>
      exists k :: 0 <= k < |fields| && !IsIncludeTerm(fields[k]) && fields[k][1..] == t
  {
    if fields != [] {
      var init := fields[..|fields| - 1];
      TermsMembership(init, t);
      assert forall k :: 0 <= k < |init| ==> init[k] == fields[k];
      assert fields == init + [fields[|fields| - 1]];
    }
  }

  /** A query of plain tags, separated by spaces, includes exactly those
      tags and excludes none; a bare "-" excludes the empty name. */
  lemma PlainQueryIncludesAll(ws: seq<string>)
    requires forall k :: 0 <= k < |ws| ==> IsWord(ws[k]) && ws[k][0] != '-'
    ensures IncludedTerms(Fields(Join(ws, ' '))) == ws
    ensures ExcludedTerms(Fields(Join(ws, ' '))) == []
    ensures ExcludedTerms(["-"]) == [""]
  {
    FieldsOfJoin(ws);
    PlainTerms(ws);
  }

  lemma {:induction false} PlainTerms(ws: seq<string>)
    requires forall k :: 0 <= k < |ws| ==> ws[k] != [] && ws[k][0] != '-'
    ensures IncludedTerms(ws) == ws && ExcludedTerms(ws) == []
  {
    if ws != [] {
      PlainTerms(ws[..|ws| - 1]);
    }
  }

  /** The page a request asks for: p read as an integer by Atoi if that is
      positive, otherwise 0. */
  function RequestedPage(p: string): (page: int)
    ensures 0 <= page <= MaxInt64
    ensures page > 0 ==> p != [] && p[0] != '-'
    ensures page > 0 ==> IsDecimal(Unsigned(p)) || DigitsValue(LeadingDigits(Unsigned(p))) > MaxUint64
  {
    var n := Atoi(p);
    if n > 0 then n else 0
  }

  /** A page number written in decimal is read back; zero and negative
      numbers give page 0. */
  lemma RequestedPageOfNumber(n: int)
    requires MinInt64 <= n <= MaxInt64
    ensures RequestedPage(FormatInt(n)) == if n > 0 then n else 0
  {
    AtoiOfFormat(n);
  }

  /** A page number past 2^64 - 1 asks for the largest int64 page, even when
      something other than a digit follows it. */
  lemma RequestedPageOfOverflow(d: string, rest: string)
    requires IsDecimal(d) && DigitsValue(d) > MaxUint64
    requires rest == [] || !IsAsciiDigit(rest[0])
    ensures RequestedPage(d + rest) == MaxInt64
  {
    assert "" + (d + rest) == d + rest;
    AtoiOverflowIgnoresRest("", d, rest);
  }

  /** The positional arguments of the post query: the tag list if there are
      tags, the exclude list if there are excludes, the tag count if there
      are tags, then the limit and the page. No list argument is empty, so
      the IN expansion is never handed an empty list. */
  function ArgsFor(tags: seq<string>, exclude: seq<string>, limit: int, page: int): (args: seq<Arg>)
    ensures |args| == 2 + (if |tags| != 0 then 2 else 0) + (if |exclude| != 0 then 1 else 0)
    ensures |tags| != 0 ==> args[0] == Strings(tags) && args[|args| - 3] == Int(|tags|)
    ensures |exclude| != 0 ==> args[if |tags| != 0 then 1 else 0] == Strings(exclude)
    ensures args[|args| - 2] == Int(limit) && args[|args| - 1] == Int(page)
    ensures forall k :: 0 <= k < |args| && args[k].Strings? ==> args[k].values != []
  {
    (if |tags| != 0 then [Strings(tags)] else [])
    + (if |exclude| != 0 then [Strings(exclude)] else [])
    + (if |tags| != 0 then [Int(|tags|)] else [])
    + [Int(limit), Int(page)]
  }

  /** The ids of some posts, in order. */
  function PostIds(posts: seq<PostSummary>): (ids: seq<uint64>)
    ensures |ids| == |posts|
    ensures forall i :: 0 <= i < |posts| ==> ids[i] == posts[i].id
  {
    seq(|posts|, i requires 0 <= i < |posts| => posts[i].id)
  }

  /** The state of one post search. */
  class PostsQuery {
    var tags: seq<string>
    var exclude: seq<string>
    var order: string
    var limit: int
    var page: int
    var posts: seq<PostSummary>
    var tagStats: seq<TagStat>

    /** newPostsQuery: newest first, 40 posts a page, page 0, no terms. */
    constructor ()
      ensures tags == [] && exclude == []
      ensures order == DefaultOrder && limit == DefaultLimit && page == 0
      ensures posts == [] && tagStats == []
    {
      tags, exclude := [], [];
      order, limit, page := DefaultOrder, DefaultLimit, 0;
      posts, tagStats := [], [];
    }

    /** The parse step of GetPosts: unless the query is empty, each of its
        fields is added as a term. */
    method AddQueryTerms(query: string)
      modifies this
      ensures tags == old(tags) + IncludedTerms(Fields(query))
      ensures exclude == old(exclude) + ExcludedTerms(Fields(query))
      ensures order == old(order) && limit == old(limit) && page == old(page)
      ensures posts == old(posts) && tagStats == old(tagStats)
    {
      if |query| == 0 {
        FieldsEmpty();
        return;
      }
      var fields := Fields(query);
      AddFields(fields);
    }

    /** The loop over the fields of the query: each field is appended to the
        include list, or without its leading '-' to the exclude list. */
    method AddFields(fields: seq<string>)
      requires NonEmptyFields(fields)
      modifies this
      ensures tags == old(tags) + IncludedTerms(fields)
      ensures exclude == old(exclude) + ExcludedTerms(fields)
      ensures order == old(order) && limit == old(limit) && page == old(page)
      ensures posts == old(posts) && tagStats == old(tagStats)
    {
      for i := 0 to |fields|
        invariant tags == old(tags) + IncludedTerms(fields[..i])
        invariant exclude == old(exclude) + ExcludedTerms(fields[..i])
        invariant order == old(order) && limit == old(limit) && page == old(page)
        invariant posts == old(posts) && tagStats == old(tagStats)
      {
        var q := fields[i];
        TermsStep(fields, i);
        if |q| != 0 && q[0] != '-' {
          tags := tags + [q];
        } else {
          exclude := exclude + [q[1..]];
        }
      }
      assert fields[..|fields|] == fields;
    }

    /** The argument list getPosts builds, appended to step by step. */
    method BuildArgs() returns (args: seq<Arg>)
      ensures args == ArgsFor(tags, exclude, limit, page)
    {
      args := [];
      var tc := |tags|;
      if tc != 0 {
        args := args + [Strings(tags)];
      }
      if |exclude| != 0 {
        args := args + [Strings(exclude)];
      }
      if tc != 0 {
        args := args + [Int(tc)];
      }
      args := args + [Int(limit), Int(page)];
    }

    /** getPosts once its template has rendered: run the post query with
        the built arguments and keep the rows it returns. */
    method LoadPosts(selectPosts: seq<Arg> -> Select<PostSummary>) returns (err: Option<string>)
      modifies this
      ensures var result := selectPosts(ArgsFor(old(tags), old(exclude), old(limit), old(page)));
        && (err.None? <==> result.Rows?)
        && (result.Rows? ==> posts == result.rows)
        && (result.SelectFailed? ==> err == Some(result.reason) && posts == old(posts))
      ensures tags == old(tags) && exclude == old(exclude) && limit == old(limit) && page == old(page)
      ensures order == old(order) && tagStats == old(tagStats)
    {
      var args := BuildArgs();
      var result := selectPosts(args);
      if result.SelectFailed? {
        return Some(result.reason);
      }
      posts := result.rows;
      return None;
    }

    /** The ids getTagStats collects: none, and no query, when there are no
        posts; otherwise the id of each post, in order. */
    method TagStatsPostIds() returns (ids: Option<seq<uint64>>)
      ensures ids.None? <==> |posts| == 0
      ensures ids.Some? ==> |ids.value| == |posts|
      ensures ids.Some? ==> forall i :: 0 <= i < |posts| ==> ids.value[i] == posts[i].id
    {
      var pl := |posts|;
      if pl == 0 {
        return None;
      }
      var postIDs := new uint64[pl];
      for i := 0 to pl
        invariant forall k :: 0 <= k < i ==> postIDs[k] == posts[k].id
      {
        postIDs[i] := posts[i].id;
      }
      return Some(postIDs[..]);
    }

    /** getTagStats: with no posts nothing is queried; otherwise the tag
        statistics of the posts' ids are fetched and kept. */
    method GetTagStats(selectTagStats: seq<uint64> -> Select<TagStat>) returns (err: Option<string>)
      modifies this
      ensures |posts| == 0 ==> err.None? && tagStats == old(tagStats)
      ensures |posts| != 0 ==>
        var result := selectTagStats(PostIds(posts));
        && (err.None? <==> result.Rows?)
        && (result.Rows? ==> tagStats == result.rows)
        && (result.SelectFailed? ==> err == Some(result.reason) && tagStats == old(tagStats))
      ensures tags == old(tags) && exclude == old(exclude) && order == old(order)
      ensures limit == old(limit) && page == old(page) && posts == old(posts)
    {
      var ids := TagStatsPostIds();
      if ids.None? {
        return None;
      }
      assert ids.value == PostIds(posts);
      var result := selectTagStats(ids.value);
      if result.SelectFailed? {
        return Some(result.reason);
      }
      tagStats := result.rows;
      return None;
    }
  }

  /** The query state GetPosts sets up from the request parameters q and p
      before it queries the database. */
  method NewGetPostsQuery(q: string, p: string) returns (pq: PostsQuery)
    ensures fresh(pq)
    ensures pq.page == RequestedPage(p)
    ensures pq.tags == IncludedTerms(Fields(q)) && pq.exclude == ExcludedTerms(Fields(q))
    ensures pq.order == DefaultOrder && pq.limit == DefaultLimit
    ensures pq.posts == [] && pq.tagStats == []
  {
    var page := Atoi(p);
    pq := new PostsQuery();
    if page > 0 {
      pq.page := page;
    }
    pq.AddQueryTerms(q);
  }

  /** What GET /api/post answers: 500 with the error text, or 200 with the
      posts and their tag statistics. */
  datatype PostsResponse =
    | PostsFailed(status: int, err: string)
    | PostsFound(status: int, posts: seq<PostSummary>, tagStats: seq<TagStat>)

  /** The GET /api/post handler. `template` is the error of rendering the
      select_posts template, if any. */
  method GetPosts(q: string, p: string, template: Option<string>,
                  selectPosts: seq<Arg> -> Select<PostSummary>,
                  selectTagStats: seq<uint64> -> Select<TagStat>) returns (resp: PostsResponse)
    ensures template.Some? ==> resp == PostsFailed(500, template.value)
    ensures template.None? ==>
      var args := ArgsFor(IncludedTerms(Fields(q)), ExcludedTerms(Fields(q)), DefaultLimit, RequestedPage(p));
      match selectPosts(args)
      case SelectFailed(reason) => resp == PostsFailed(500, reason)
      case Rows(posts) =>
        if posts == [] then resp == PostsFound(200, [], [])
        else match selectTagStats(PostIds(posts))
          case SelectFailed(reason) => resp == PostsFailed(500, reason)
          case Rows(stats) => resp == PostsFound(200, posts, stats)
  {
    var pq := NewGetPostsQuery(q, p);
    if template.Some? {
      return PostsFailed(500, template.value);
    }
    var err := pq.LoadPosts(selectPosts);
    if err.Some? {
      return PostsFailed(500, err.value);
    }
    err := pq.GetTagStats(selectTagStats);
    if err.Some? {
      return PostsFailed(500, err.value);
    }
    return PostsFound(200, pq.posts, pq.tagStats);
  }
}

=== FILE: user.dfy ===
/** The credential rules of the user endpoints: username and password
    validation, the password hashing and checking gates in front of bcrypt,
    and the responses of the register and login handlers. bcrypt and the
    database are parameters: functions from their arguments to what they
    return. */
module User {
  import opened Wrappers
  import opened GoText

  /** The errors the handlers report; `Foreign` is an error of bcrypt passed
      through unchanged. */
  datatype Error =
    | UsernameLength
    | UsernameInvalidCharacters
    | UsernameInUse
    | NoUser
    | PasswordLength
    | PasswordsDontMatch
    | Foreign(reason: string)

  /** The text of each error. */
  function Message(e: Error): string {
    match e
    case UsernameLength => "username has to be between 4 and 30 characters long"
    case UsernameInvalidCharacters => "username may only contain numbers and letters"
    case UsernameInUse => "username already in use"
    case NoUser => "no user with that name exists"
    case PasswordLength => "password has to be at least 8 characters long"
    case PasswordsDontMatch => "given and stored password do not match"
    case Foreign(reason) => reason
  }

  type byte = x: int | 0 <= x < 256

  /** What bcrypt.GenerateFromPassword returns. */
  datatype HashOutcome = Hashed(hash: seq<byte>) | HashFailed(reason: string)

  /** What bcrypt.CompareHashAndPassword returns. */
  datatype CompareOutcome = Matched | Mismatched | CompareFailed(reason: string)

  /** What executing the insert_user statement returns. */
  datatype InsertOutcome = ExecFailed | Inserted(rowsAffected: nat)

  /** What fetching a user row with its password hash returns. */
  datatype LookupOutcome = Found(passwordHash: seq<byte>) | NoRows | LookupFailed

  /** A value or the error that replaced it. */
  datatype Result<T> = Ok(value: T) | Err(error: Error)

  /** The JSON body of a response: {"error": ...} or {"msg": ...}. */
  datatype Body = ErrorBody(error: string) | MessageBody(msg: string)

  datatype Response = Response(status: int, body: Body)

  const StatusOK := 200
  const StatusBadRequest := 400
  const StatusConflict := 409
  const StatusInternalServerError := 500

  const InternalError: Response := Response(StatusInternalServerError, ErrorBody("internal server error"))
  const Success: Response := Response(StatusOK, MessageBody("We did it reddit!"))

  /** A response reporting error `e` with status `status`. */
  function Failure(status: int, e: Error): Response {
    Response(status, ErrorBody(Message(e)))
  }

  /** The runes a username may hold: 'a'..'z' and the decimal digits of
      unicode.IsDigit (which include digits outside ASCII). */
  predicate IsUsernameRune(r: char) {
    ('a' <= r <= 'z') || IsDigit(r)
  }

  /** A username ValidUsername accepts. */
  predicate UsernameAcceptable(name: string) {
    4 <= |name| <= 30 && forall k :: 0 <= k < |name| ==> IsUsernameRune(name[k])
  }

  /** ValidUsername: the rune count is checked first, then each rune in
      turn; the result is the first error met, or None. */
  method ValidUsername(name: string) returns (err: Option<Error>)
    ensures err == Some(UsernameLength) <==> |name| < 4 || |name| > 30
    ensures err == Some(UsernameInvalidCharacters) <==>
      4 <= |name| <= 30 && exists k :: 0 <= k < |name| && !IsUsernameRune(name[k])
    ensures err == None <==> UsernameAcceptable(name)
  {
    var l := |name|;
    if l < 4 || l > 30 {
      return Some(UsernameLength);
    }
    for i := 0 to |name|
      invariant forall k :: 0 <= k < i ==> IsUsernameRune(name[k])
    {
      if !IsUsernameRune(name[i]) {
        return Some(UsernameInvalidCharacters);
      }
    }
    return None;
  }

  /** ValidPassword: a password shorter than 8 runes is refused. */
  function ValidPassword(password: string): (err: Option<Error>)
    ensures err.Some? <==> |password| < 8
    ensures err.Some? ==> err.value == PasswordLength
  {
    if |password| < 8 then Some(PasswordLength) else None
  }

  /** Passwords are measured in runes, not bytes: four two-byte runes make
      eight bytes and are still refused. */
  lemma PasswordLengthCountsRunes()
    ensures var pw := "éééé";
      Utf8Length(pw) == 8 && ValidPassword(pw) == Some(PasswordLength)
  {
    var pw := "éééé";
    assert pw[1..][1..][1..][1..] == [];
  }

  /** HashPassword: the validator's error comes first and bcrypt is not
      consulted; otherwise bcrypt's hash, or its error unchanged. */
  function HashPassword(password: string, generate: string -> HashOutcome): (r: Result<seq<byte>>)
    ensures |password| < 8 ==> r == Err(PasswordLength)
    ensures |password| >= 8 ==> (r.Ok? <==> generate(password).Hashed?)
    ensures |password| >= 8 && r.Ok? ==> r.value == generate(password).hash
    ensures |password| >= 8 && r.Err? ==> r.error == Foreign(generate(password).reason)
  {
    match ValidPassword(password)
    case Some(e) => Err(e)
    case None =>
      match generate(password)
      case Hashed(hash) => Ok(hash)
      case HashFailed(reason) => Err(Foreign(reason))
  }

  /** ComparePassword: the validator's error comes first and bcrypt is not
      consulted; a bcrypt mismatch becomes PasswordsDontMatch and every
      other bcrypt result is passed through. */
  function ComparePassword(stored: seq<byte>, password: string,
                           compare: (seq<byte>, string) -> CompareOutcome): (err: Option<Error>)
    ensures |password| < 8 ==> err == Some(PasswordLength)
    ensures |password| >= 8 ==> (err.None? <==> compare(stored, password).Matched?)
    ensures |password| >= 8 ==> (err == Some(PasswordsDontMatch) <==> compare(stored, password).Mismatched?)
    ensures |password| >= 8 && compare(stored, password).CompareFailed? ==>
      err == Some(Foreign(compare(stored, password).reason))
  {
    match ValidPassword(password)
    case Some(e) => Some(e)
    case None =>
      match compare(stored, password)
      case Matched => None
      case Mismatched => Some(PasswordsDontMatch)
      case CompareFailed(reason) => Some(Foreign(reason))
  }

  /** Registration and login apply the same password rule: a password that
      HashPassword refuses for its length is refused by ComparePassword for
      the same reason, and the other way round, whatever bcrypt does. */
  lemma PasswordRuleShared(password: string, generate: string -> HashOutcome,
                           stored: seq<byte>, compare: (seq<byte>, string) -> CompareOutcome)
    ensures HashPassword(password, generate) == Err(PasswordLength)
      <==> ComparePassword(stored, password, compare) == Some(PasswordLength)
  {
  }

  /** Lowering a rune lets it into a username exactly when it already was a
      username rune or it is one of the capitals that lower to 'a'..'z'. */
  lemma LoweredRune(c: char)
    ensures IsUsernameRune(ToLowerRune(c)) <==>
      IsUsernameRune(c) || ('A' <= c <= 'Z') || c == '\U{0130}' || c == '\U{212A}'
  {
    var r := ToLowerRune(c);
    if r != c {
      assert 'a' <= r <= 'z';
    }
  }

  /** Capital letters are refused by ValidUsername, but RegisterUser lowers
      the name first: a name is accepted after lowering exactly when its
      length is right and each rune is a username rune or an ASCII capital
      (or one of the two other capitals that lower into 'a'..'z'). */
  lemma LoweredNameAcceptable(name: string)
    ensures UsernameAcceptable(ToLower(name)) <==>
      4 <= |name| <= 30 &&
      forall k :: 0 <= k < |name| ==>
        IsUsernameRune(name[k]) || ('A' <= name[k] <= 'Z') || name[k] == '\U{0130}' || name[k] == '\U{212A}'
  {
    forall k | 0 <= k < |name| {
      LoweredRune(name[k]);
    }
  }

  /** Capitals are refused before lowering. */
  lemma CapitalRefused(name: string, k: nat)
    requires k < |name| && 'A' <= name[k] <= 'Z'
    ensures !UsernameAcceptable(name)
  {
  }

  /** unicode.IsDigit admits decimal digits outside ASCII, so a name holding
      MATHEMATICAL BOLD DIGIT ONE (U+1D7CF) is accepted. */
  lemma NonAsciiDigitAccepted()
    ensures UsernameAcceptable("abc\U{1D7CF}")
  {
    var name := "abc\U{1D7CF}";
    assert name[3] as int == 0x1D7CF;
  }

  /** What the POST /user/register handler answers for the form fields
      `name` and `password`, and the (name, hash) pair it gives to the
      insert_user statement (None when it stops before the insert). */
  function RegisterOutcome(name: string, password: string, generate: string -> HashOutcome,
                           insert: (string, seq<byte>) -> InsertOutcome): (Response, Option<(string, seq<byte>)>)
  {
    var lowered := ToLower(name);
    if !UsernameAcceptable(lowered) then
      (Failure(StatusBadRequest, if |lowered| < 4 || |lowered| > 30 then UsernameLength else UsernameInvalidCharacters),
       None)
    else if |password| < 8 then (Failure(StatusBadRequest, PasswordLength), None)
    else match generate(password)
      case HashFailed(_) => (InternalError, None)
      case Hashed(hash) =>
        var resp := match insert(lowered, hash)
          case ExecFailed => InternalError
          case Inserted(n) => if n == 0 then Failure(StatusConflict, UsernameInUse) else Success;
        (resp, Some((lowered, hash)))
  }

  /** The POST /user/register handler: lower the name, validate it, hash
      the password, insert the user. */
  method RegisterUser(name: string, password: string, generate: string -> HashOutcome,
                      insert: (string, seq<byte>) -> InsertOutcome)
    returns (resp: Response, row: Option<(string, seq<byte>)>)
    ensures (resp, row) == RegisterOutcome(name, password, generate, insert)
  {
    var lowered := ToLower(name);
    var err := ValidUsername(lowered);
    if err.Some? {
      return Failure(StatusBadRequest, err.value), None;
    }
    var hashed := HashPassword(password, generate);
    if hashed == Err(PasswordLength) {
      return Failure(StatusBadRequest, hashed.error), None;
    } else if hashed.Err? {
      return InternalError, None;
    }
    row := Some((lowered, hashed.value));
    var res := insert(lowered, hashed.value);
    if res.ExecFailed? {
      return InternalError, row;
    }
    if res.rowsAffected == 0 {
      return Failure(StatusConflict, UsernameInUse), row;
    }
    return Success, row;
  }

  /** Registration answers 200 only for an acceptable lowered name, a
      password of at least 8 runes, a hash from bcrypt and an insert that
      affected a row; it answers 400 exactly when the name or the password is
      refused, 409 with "username already in use" exactly when the insert
      affected no row, and inserts only the lowered name with bcrypt's
      hash. */
  lemma RegisterStatuses(name: string, password: string, generate: string -> HashOutcome,
                         insert: (string, seq<byte>) -> InsertOutcome)
    ensures var (resp, row) := RegisterOutcome(name, password, generate, insert);
      var lowered := ToLower(name);
      var admitted := UsernameAcceptable(lowered) && |password| >= 8 && generate(password).Hashed?;
      && (resp.status == StatusOK <==>
            admitted && insert(lowered, generate(password).hash).Inserted?
            && insert(lowered, generate(password).hash).rowsAffected > 0)
      && (resp.status == StatusBadRequest <==> !UsernameAcceptable(lowered) || |password| < 8)
      && (resp.status == StatusConflict <==>
            admitted && insert(lowered, generate(password).hash) == Inserted(0))
      && (resp.status == StatusConflict ==> resp.body == ErrorBody(Message(UsernameInUse)))
      && (row.Some? <==> admitted)
      && (row.Some? ==> row.value == (lowered, generate(password).hash))
  {
  }

  /** The POST /user/login handler, for the form fields `name` and
      `password`; `lower` is strings.ToLower in full (login looks the
      lowered name up without validating it, so every Unicode case mapping
      shows), `templateOk` says whether the select_user template rendered,
      `users` answers the lookup of a name, and `compare` is bcrypt's check
      of a stored hash against a password. */
  function LoginUser(name: string, password: string, lower: string -> string, templateOk: bool,
                     users: string -> LookupOutcome,
                     compare: (seq<byte>, string) -> CompareOutcome): (resp: Response)
    ensures resp.status == StatusOK <==>
      && templateOk && users(lower(name)).Found? && |password| >= 8
      && compare(users(lower(name)).passwordHash, password).Matched?
    ensures resp.status == StatusOK ==> resp == Success
    ensures !templateOk ==> resp == InternalError
    ensures templateOk && users(lower(name)).NoRows? ==> resp == Failure(StatusBadRequest, NoUser)
    ensures templateOk && users(lower(name)).LookupFailed? ==> resp == InternalError
    ensures templateOk && users(lower(name)).Found? && |password| < 8 ==>
      resp == Failure(StatusBadRequest, PasswordLength)
    ensures templateOk && users(lower(name)).Found? && |password| >= 8 ==>
      var outcome := compare(users(lower(name)).passwordHash, password);
      && (outcome.Mismatched? ==> resp == Failure(StatusBadRequest, PasswordsDontMatch))
      && (outcome.CompareFailed? ==> resp == InternalError)
    ensures resp.status in {StatusOK, StatusBadRequest, StatusInternalServerError}
  {
    if !templateOk then InternalError
    else
      match users(lower(name))
      case NoRows => Failure(StatusBadRequest, NoUser)
      case LookupFailed => InternalError
      case Found(hash) =>
        match ComparePassword(hash, password, compare)
        case None => Success
        case Some(PasswordLength) => Failure(StatusBadRequest, PasswordLength)
        case Some(PasswordsDontMatch) => Failure(StatusBadRequest, PasswordsDontMatch)
        case Some(_) => InternalError
  }
}

=== FILE: wrappers.dfy ===
/** Optional values: Go's nil pointer and nil error are modelled as None. */
module Wrappers {

  datatype Option<+T> = None | Some(value: T)
}
